=== FILE: README.md ===
# SPIL learner core, modelled in Dafny

This project models the arithmetic core of SPIL (separated
proportional-integral Lagrangian), a constrained model-based
reinforcement-learning algorithm in the GOPS toolbox, and proves
properties of it. It also models the trainer's batch merge, the
trainer's iteration counter, and the registry-name formatter.

The learner (`modules/algorithm/spil.py`) works in four steps:

- **Value rollouts.** It rolls the environment model forward
  `forward_step` (25) steps from every sample of a batch.
- **Losses.** It builds the value, safety-probability and
  multiplier-network regression losses from those rollouts. The loss
  computation also estimates the batch's probability of staying safe
  (`safe_prob`).
- **Multiplier.** It feeds that probability to a separated PI controller
  (`spil_get_weight`). The controller's state is `delta_i`,
  `safe_prob_pre` and `lam`.
- **Policy.** It weighs the policy rollout's return against the product
  of the constraint transfer function `Phi`.

`ApproxContainer.update` applies the optimizer step and soft-updates the
target networks.

The trainer (`modules/trainer/on_sync_trainer.py`) does two jobs:

- it merges the samplers' batches (`concate`);
- it counts iterations, `num_epoch` per `step`, until `max_iteration`.

`formatter` turns a snake_case module name into the CamelCase class
name. It is duplicated verbatim in `create_sampler.py` and
`create_apprfunc.py`, and is modelled once (`NameFormat`).

How the source's parts are represented:

- **Networks and environment.** The networks, the environment model and
  the policy are function-valued fields (`Networks`, `Dynamics`).
- **`exp`.** It is a function parameter. Where needed it is assumed
  positive (`ExpPositive`) and increasing (`ExpLike`).
- **Numbers.** Floats are `real`.
- **Controller state.** The controller's mutable fields are threaded as
  a `ControllerState` record.
- **Batches.** The rollouts and the network calls act row by row, so a
  batch is a sequence of samples and every rollout is modelled per
  sample. The losses and `safe_prob` are reductions over the batch:
  batch means, modelled by `Mean` (and `SquaredError` for the squared
  losses).

Modules, one file each:

| module | file | what it covers |
|---|---|---|
| `Wrappers` | `wrappers.dfy` | `Result` and `Option` |
| `RealMath` | `real_math.dfy` | clamp, powers, sums, means, squared error |
| `SpilController` | `spil_controller.dfy` | `spil_get_weight` and the multiplier target |
| `SpilRollout` | `spil_rollout.dfy` | rollouts, returns, safety flags, `Phi` |
| `SpilLoss` | `spil_loss.dfy` | `compute_loss_v`, `compute_loss_policy`, `compute_gradient` |
| `SpilTarget` | `spil_target.dfy` | `ApproxContainer.update` |
| `OnSyncTrainer` | `on_sync_trainer.dfy` | `concate`, `step`, `train` |
| `NameFormat` | `name_format.dfy` | `formatter` |

Where the code departs from what its names suggest, the model follows
the code:

- **`Phi` is not strictly decreasing everywhere.** The exponent argument
  `y / 0.07` is clamped to [-10, 5], so `Phi` is constant for y <= -0.7
  and for y >= 0.35. It is strictly decreasing only in between
  (`PhiSaturates`, `PhiStrictInBand`).
- **The multiplier stored for the policy loss is always zero.** It is
  `lam * 0 + 0`, so the policy loss is the negated mean return whatever
  the controller computes (`GetWeight`, `ComputeGradient`).
- **The multiplier-network target reads the last observation.** The
  rollout loop reassigns `o`, so the target is evaluated at the
  observation fed to the last rollout step, not the sample's own
  observation (`LastObs`, `ValueLosses`).
- **The reshape can fail after the controller has moved.** The stored
  multiplier is reshaped to (1, 1), which raises unless there is
  exactly one constraint. It raises after `spil_get_weight` has already
  advanced the controller state, and the model returns that advanced
  state with a `ReshapeError` (`ComputeGradient`).

## Model

| member | source | states |
|---|---|---|
| SpilController.Separate | modules/algorithm/spil.py:318-319 | integral separation: an error with abs at most 0.1 passes unchanged, one in (0.1, 0.2] is damped by 0.7, one beyond 0.2 is scaled by the far factor; the boundaries belong to the lower band |
| SpilController.SeparateDamps | modules/algorithm/spil.py:318-319 | with a far factor in [0, 1] separation never enlarges the error and never flips its sign |
| SpilController.Init | modules/algorithm/spil.py:139-149 | the controller starts with zero accumulator and zero previous probability, one entry per constraint, in a valid state |
| SpilController.GetWeight | modules/algorithm/spil.py:315-325 | one controller step keeps the state valid (accumulator in [0, 99999]), records the probability it was given as the previous one, computes a multiplier in [0, 3333] and stores a multiplier of exactly 0 |
| SpilController.OverSatisfiedNoWindup | modules/algorithm/spil.py:316-320 | when the safe probability is at or above 0.99 the accumulator does not grow and stays non-negative |
| SpilController.FarErrorFreezesIntegral | modules/algorithm/spil.py:319-320 | an error beyond 0.2 leaves the accumulator unchanged |
| SpilController.SmallErrorIntegrated | modules/algorithm/spil.py:318-320 | an error within 0.1 is added to the accumulator in full when no clamp applies |
| SpilController.RunStaysValid | modules/algorithm/spil.py:320-325 | over any sequence of calls the state stays valid; after one call the stored multiplier is 0 and the previous probability is the last estimate |
| SpilController.Run | modules/algorithm/spil.py:316-320 | over a sequence of calls each constraint's accumulator is the result of feeding its own initial value its own column of estimates, one clamped separated step at a time: the constraints do not interact |
| SpilController.SustainedOverSatisfaction | modules/algorithm/spil.py:316-320 | under sustained over-satisfaction of a constraint its accumulator never rises above its initial value and never goes negative |
| SpilController.LamTarget | modules/algorithm/spil.py:249-254 | with x the target multiplier network's output plus the separated error: the target is Ki * x when that lies in [0, 3333], 0 when x is not positive, and 3333 when Ki * x reaches 3333; it always lies in [0, 3333] |
| SpilController.LamTargetMonotone | modules/algorithm/spil.py:252-254 | the target never decreases as the target multiplier network's output grows |
| SpilController.LamTargetIgnoresProportional | modules/algorithm/spil.py:254 | the proportional term is multiplied by 0, so probabilities with equal separated errors give equal targets |
| SpilController.SeparationRulesAgreeBelowFarBand | modules/algorithm/spil.py:250-251 | the controller's separation and the target's separation agree exactly when the error is at most 0.2 in absolute value |
| SpilController.LamTargets | modules/algorithm/spil.py:249-255 | one target per constraint, each the single-constraint target of that constraint's probability and multiplier target outputs |
| SpilRollout.Rollout | modules/algorithm/spil.py:231-243 | the rollout has exactly `forward_step` transitions whatever the done flags say |
| SpilRollout.RolloutStep | modules/algorithm/spil.py:238-241 | step k is fed the previous step's predicted observation and done flag, step 0 the sample's own |
| SpilRollout.RolloutPrefix | modules/algorithm/spil.py:231 | a shorter rollout is a prefix of a longer one from the same start |
| SpilRollout.RolloutReturnSnoc | modules/algorithm/spil.py:242 | one more step adds reward_scale * gamma^k * r_k to the return |
| SpilRollout.SafeFlag | modules/algorithm/spil.py:228-243 | the AND-accumulated safety flag is 0 or 1, and 1 exactly when the constraint was at most 0 at every step |
| SpilRollout.SafeFlagMeansStayedSafe | modules/algorithm/spil.py:236-243 | a flag of 1 means the rollout stayed safe and a flag of 0 means it did not, in both directions |
| SpilRollout.SafeFlagSticky | modules/algorithm/spil.py:243 | once a prefix of the rollout is unsafe the whole rollout is unsafe, and the flag never rises |
| SpilRollout.Phi | modules/algorithm/spil.py:295-302 | the transfer function is strictly positive and strictly below 1 + tau * m1 |
| SpilRollout.PhiNonIncreasing | modules/algorithm/spil.py:300 | for an increasing exponential, a larger constraint value never gives a larger `Phi` |
| SpilRollout.PhiStrictInBand | modules/algorithm/spil.py:300 | inside [-0.7, 0.35] `Phi` is strictly decreasing |
| SpilRollout.PhiSaturates | modules/algorithm/spil.py:300 | outside [-0.7, 0.35] `Phi` equals its value at the nearer band edge |
| SpilRollout.PhiProduct | modules/algorithm/spil.py:275-284 | the product `c_mul` of `Phi` over a rollout is strictly positive |
| SpilRollout.PhiProductBound | modules/algorithm/spil.py:284 | the product over n steps is at most (1 + tau * m1)^n |
| SpilRollout.PhiSum | modules/algorithm/spil.py:274-283 | the sum `c_sum` over a non-empty rollout is positive and at most n * (1 + tau * m1) |
| SpilRollout.PhiVectorBounds | modules/algorithm/spil.py:274-284 | every constraint dimension's sum and product obey the bounds above and the product is that dimension's `Phi` product |
| SpilRollout.ValueStep | modules/algorithm/spil.py:231-243 | one iteration of the value loop, with its first-step branch, extends the loop invariant by one step |
| SpilRollout.ValueRollout | modules/algorithm/spil.py:230-245 | `r_sum` is the scaled discounted return plus gamma^H * V_target of the last predicted observation, `o` ends as the observation fed to the last step, and each flag is the rollout's safety flag |
| SpilRollout.PolicyStep | modules/algorithm/spil.py:267-284 | one iteration of the policy loop, with its first-step branch, extends the loop invariant by one step |
| SpilRollout.PolicyRollout | modules/algorithm/spil.py:267-285 | the policy return has no bootstrap tail; per constraint `c_sum` is the sum and `c_mul` the product of `Phi` over the rollout, within their bounds |
| SpilLoss.SafeProbability | modules/algorithm/spil.py:257 | one entry per constraint; for 0/1 flags each entry lies in [0, 1], is 1 exactly when every row is 1 and 0 exactly when every row is 0 |
| SpilLoss.BatchSafeProbability | modules/algorithm/spil.py:228-257 | `safe_prob[j]` lies in [0, 1]; it is 1 exactly when every sample's rollout stayed safe in dimension j and 0 exactly when none did |
| SpilLoss.Weights | modules/algorithm/spil.py:291 | the reward weight times 1 + sum(lam) is 1, and reward weight plus constraint weights add up to 1 |
| SpilLoss.WeightsBounded | modules/algorithm/spil.py:291 | for non-negative multipliers the reward weight lies in (0, 1] and the constraint weights are non-negative and sum to less than 1 |
| SpilLoss.Objective | modules/algorithm/spil.py:291-292 | one sample's weighted objective equals (r_sum + lam * sum(c_mul)) / (1 + lam) |
| SpilLoss.PolicyLoss | modules/algorithm/spil.py:291-293 | the policy loss is minus the batch mean of (r_sum + lam * sum(c_mul)) / (1 + lam) |
| SpilLoss.PolicyLossWithoutMultiplier | modules/algorithm/spil.py:288-293 | with the zero multiplier the controller stores, the policy loss is the negated mean return |
| SpilLoss.PolicyLossAntitone | modules/algorithm/spil.py:291-293 | with a non-negative multiplier, raising returns never raises the policy loss (the loss is the negated objective) |
| SpilLoss.ValuePhase | modules/algorithm/spil.py:230-245 | per sample the value target, the flag row and the last observation of its own rollout, for the whole batch |
| SpilLoss.PolicyPhase | modules/algorithm/spil.py:267-284 | per sample the return of its own rollout and, per constraint, the product of `Phi` over that rollout, positive and bounded |
| SpilLoss.ValueLosses | modules/algorithm/spil.py:223-263 | the value loss is the squared error of V against the bootstrapped targets, the probability loss is taken against the batch's safety flags, the multiplier loss against the targets at each sample's last observation, and the returned flags are the batch's safety flags |
| SpilLoss.ProbLoss | modules/algorithm/spil.py:247 | the probability loss is non-negative, and zero exactly when the network predicts every sample's safety flag exactly |
| SpilLoss.LamnetLoss | modules/algorithm/spil.py:249-255 | the multiplier loss is non-negative, and zero exactly when the network's output equals the multiplier target at the sample's last observation, for every sample and constraint |
| SpilLoss.ComputeGradient | modules/algorithm/spil.py:170-215 | the safe probability comes from the value phase and is then given to the controller; the losses exist exactly when there is one constraint (with none or several, the reshape fails after the controller step), with the value loss against the bootstrapped targets, the probability and multiplier losses against the rollouts' flags and last observations, and the policy loss equal to the negated mean return |
| SpilTarget.Blend | modules/algorithm/spil.py:121-123 | a soft update keeps the target's length, shrinks each paired entry's gap to its online entry by the factor 1 - tau, and leaves the entries `zip` does not pair unchanged |
| SpilTarget.BlendBetween | modules/algorithm/spil.py:121-123 | for tau in [0, 1] the updated target parameter lies between its old value and the online value |
| SpilTarget.BlendExtremes | modules/algorithm/spil.py:121-123 | tau = 0 keeps the target and tau = 1 copies the online parameters |
| SpilTarget.BlendFixedPoint | modules/algorithm/spil.py:121-123 | a target equal to its network stays equal under any tau |
| SpilTarget.BlendRepeated | modules/algorithm/spil.py:121-123 | after k soft updates towards fixed parameters every paired gap is (1 - tau)^k times the initial gap |
| SpilTarget.Update | modules/algorithm/spil.py:111-123 | networks absent from `grads_dict` and their targets are untouched; each present network takes its optimizer step, and its target keeps its shape |
| SpilTarget.UpdateTracksOnline | modules/algorithm/spil.py:114-123 | after `update` a stepped network's target moves towards its new parameters by the fraction tau |
| SpilTarget.HardUpdateSynchronizes | modules/algorithm/spil.py:114-123 | with tau = 1 and a shape-keeping optimizer a stepped network's target becomes an exact copy |
| OnSyncTrainer.Concate | modules/trainer/on_sync_trainer.py:118-123 | no samples fail; otherwise the merge succeeds exactly when every batch carries rows for each field the first batch carries rows for, and the merged fields are exactly those |
| OnSyncTrainer.CatLength | modules/trainer/on_sync_trainer.py:122 | a merged field has as many rows as the batches together |
| OnSyncTrainer.CatContents | modules/trainer/on_sync_trainer.py:122 | batch j's rows appear unchanged and in order right after the rows of batches 0..j-1 |
| OnSyncTrainer.ConcateSingle | modules/trainer/on_sync_trainer.py:119-123 | merging one batch keeps its fields that hold rows, unchanged |
| OnSyncTrainer.ConcateField | modules/trainer/on_sync_trainer.py:120-122 | in a successful merge, each field's length is the total row count and batch j's rows sit at offset rows(0..j-1) |
| OnSyncTrainer.EpochsCompose | modules/trainer/on_sync_trainer.py:80-84 | a run of a epochs followed by b more, numbered on, is the run of a + b epochs; when one of the first a raises, the later ones never run |
| OnSyncTrainer.EpochsFailure | modules/trainer/on_sync_trainer.py:80-84 | when the epoch loop stops on an error, every earlier epoch completed, and the epoch numbered after them, run on the state they left, raised that error |
| OnSyncTrainer.EpochsSucceed | modules/trainer/on_sync_trainer.py:80-84 | the loop completes all its epochs exactly when none of the chained epochs raises |
| OnSyncTrainer.Step | modules/trainer/on_sync_trainer.py:79-111 | a failed merge leaves the trainer unchanged; otherwise the learner goes through the epoch loop numbered from the old counter, which rises by the number of epochs that completed; an epoch that raises ends the step with that error and skips the bookkeeping; the step raises exactly when the merge fails, an epoch raises, an interval is zero, or no epoch ran while the counter is a multiple of the logging interval |
| OnSyncTrainer.Train | modules/trainer/on_sync_trainer.py:113-115 | when no step raises, `train` returns only at or past `max_iteration`, overshooting by less than one step, after exactly ceil((max - iteration) / num_epoch) steps; a trainer already there is unchanged |
| NameFormat.Split | modules/create_pkg/create_sampler.py:36 | the pieces of `split('_')` contain no '_', there is at least one, and joining them with '_' gives back the name |
| NameFormat.SplitJoin | modules/create_pkg/create_apprfunc.py:40 | splitting a '_'-join of pieces without '_' gives back the pieces |
| NameFormat.PiecesNonEmpty | modules/create_pkg/create_apprfunc.py:40-43 | every piece is non-empty exactly for a non-empty name without a leading '_', a trailing '_' or "__" |
| NameFormat.CapitalizeAllFails | modules/create_pkg/create_apprfunc.py:42-43 | the capitalizing loop fails exactly when some piece is empty |
| NameFormat.Format | modules/create_pkg/create_sampler.py:35-43 | `formatter` fails exactly on names that are empty, start or end with '_', or contain "__", whichever `firstUpper` is |
| NameFormat.FormatMatchesScan | modules/create_pkg/create_sampler.py:36-39 | on an accepted name the result equals a character scan that drops each '_' and upper-cases the first character and each character after a '_' |
| NameFormat.CamelLength | modules/create_pkg/create_apprfunc.py:42-43 | the scan's result has no '_' and is len(src) - count('_') long |
| NameFormat.FormatLength | modules/create_pkg/create_sampler.py:36-42 | any successful result has no '_' and is len(src) - count('_') long |
| NameFormat.LowerFirstOnly | modules/create_pkg/create_sampler.py:41-42 | `firstUpper=False` lower-cases the first character of the `firstUpper=True` result and leaves the rest as it was |
| NameFormat.AlreadyFormatted | modules/create_pkg/create_apprfunc.py:39-47 | a name without '_' whose first character is already upper-case comes back unchanged |
| NameFormat.FormatIdempotent | modules/create_pkg/create_sampler.py:35-43 | formatting a formatted name returns it unchanged |

## Left out

- Autograd, `backward`, `zero_grad`, the Adam steps and GPU transfers are library behaviour. `compute_gradient` is modelled as the losses it differentiates, and the optimizer is a function parameter of `Update`.
- The network architectures (`mlp`, `Lambda`, `Prob`, the approximators in `cnn.py`) and `envmodel.forward` are uninterpreted function fields. `Prob`'s `* 0.5 + 0.5` output scaling is part of the `prob` function.
- Floating-point rounding, and `exp` beyond positivity and monotonicity, are not modelled: the model computes over `real`.
- Telemetry is left out because it does not affect the learner's results. This covers `tb_info`, `time.time` and the `print` of rewards. The gradient lists `compute_gradient` returns (`grads_dict`) are what `update` consumes; they are modelled by the losses they differentiate and by the optimizer parameter of `Update`.
- The epoch of `step` (`load_state_dict`, `compute_gradient`, `update`) is the parameter `Epoch`, which may raise, because the trainer drives whatever algorithm it is given. The model does not plug `SpilLoss.ComputeGradient` and `SpilTarget.Update` into it. Their errors, such as `ReshapeError` when `constraint_dim != 1`, reach `Step` only as `Learner` errors of that parameter.
- `step`'s logging, evaluation, checkpointing and ray-based sampling are I/O. The sampled batches of each step are a parameter of `Train`. Only the conditions under which the logging, evaluation and saving tests raise are modelled.
- The dynamic imports and class lookups of `create_sampler` and `create_apprfunc` are left out; only `formatter` is modelled.
- Empty batch: torch's mean of an empty tensor is NaN, which reals cannot express, so `ComputeGradient` requires a non-empty batch. With zero constraints the probability and multiplier losses are also such NaN means, but nothing reads them before the `reshape(1, 1)` at spil.py:289 raises. `ComputeGradient` therefore models that case as the controller step followed by `ReshapeError`, as for more than one constraint, and only `ValueLosses` requires at least one constraint.
- SpilLoss.ComputeGradient: `compute_loss_v` and `compute_loss_policy` unpack `obs`, `act`, `rew`, `con`, `obs2` and `done` from the batch (spil.py:223, 266), so a batch lacking any of them raises `KeyError` first. A `Sample` always carries the two fields the rollouts read, so that error is not modelled. The batch's `act`, `rew`, `con` and `obs2` are rebound inside the rollout loops before any use, so `Sample` omits them.
- OnSyncTrainer.Train: with `num_epoch = 0` no epoch runs and the counter never moves. The first `step` from a fresh trainer then raises, because the counter starts at 0, a multiple of `log_save_interval`, and the logging branch reads the unbound `alg_tb_dict`; `Step` returns that error. Otherwise `train` never returns. `Train` requires `num_epoch > 0` so that it terminates.
- NameFormat.Upper: `str.upper` and `str.lower` are modelled on ASCII letters only. Other characters pass through unchanged, so Unicode case mappings (including those that change length) are not modelled.
- OnSyncTrainer.Concate: a missing field (`KeyError`) and a `None` field (`torch.cat` type error) are one error kind, `FieldMismatch`, because which field fails first depends on dict order. Shape mismatches in the non-leading dimensions are not modelled.
- SpilController.Init: the source never initialises `self.lam` before the first `spil_get_weight`. The model starts it at zeros; the first call overwrites it anyway.
- SpilLoss.Weights: the division by zero when 1 + sum(lam) = 0 is excluded by a precondition. It cannot happen for the non-negative multipliers the controller stores.
- `c_sum` of `compute_loss_policy` is computed but never used. `PolicyRollout` returns it as the sum of `Phi`, and `PolicyPhase` drops it, as the loss does.
- The multiplier read from `lamnet_target` before `spil_get_weight` in `compute_loss_policy` is overwritten, so the model does not read it.
- SpilLoss.ComputeGradient: with `forward_step = 0` the rollout loop never binds `r_sum`, and `compute_loss_v` raises UnboundLocalError at the bootstrap (spil.py:245), before the controller moves. `ComputeGradient`, `ValueRollout` and `PolicyRollout` require a horizon of at least one step instead of modelling that error.
- The learner's `gamma`, `reward_scale`, `forward_step` and `tau` are fields of `Config` or parameters, because `set_parameters` can overwrite them; the source's defaults are 0.99, 0.02, 25 and 0.005.

=== FILE: name_format.dfy ===
/**
  The registry-name `formatter`: a snake_case file name becomes the
  CamelCase class name looked up in the loaded module, optionally with a
  lower-case first letter.

  Case mapping covers the ASCII letters only.
*/
module NameFormat {
  import opened Wrappers

  const Sep: char := '_'

  /** Why `formatter` raises: `i[0]` on an empty segment (IndexError). */
  datatype FormatError = EmptySegment

  function Upper(c: char): (u: char)
  {
    if 'a' <= c <= 'z' then (c as int - 32) as char else c
  }

  function Lower(c: char): (l: char)
  {
    if 'A' <= c <= 'Z' then (c as int + 32) as char else c
  }

  /**
    `str.split(sep)`: the pieces between separators, at least one, none
    containing the separator, and joining them gives back `s`.
  */
  function Split(s: string, sep: char): (r: seq<string>)
    ensures |r| > 0
    ensures forall i :: 0 <= i < |r| ==> sep !in r[i]
    ensures Join(r, sep) == s
  {
    if |s| == 0 then [""]
    else
      var rest := Split(s[1..], sep);
      if s[0] == sep then [""] + rest
      else
        assert |rest| > 1 ==> Join(rest, sep) == rest[0] + [sep] + Join(rest[1..], sep);
        [[s[0]] + rest[0]] + rest[1..]
  }

  /** `sep.join(parts)`. */
  function Join(parts: seq<string>, sep: char): (s: string)
    requires |parts| > 0
  {
    if |parts| == 1 then parts[0] else parts[0] + [sep] + Join(parts[1..], sep)
  }

  /** Splitting a join of separator-free pieces gives back the pieces. */
  lemma {:induction false} SplitJoin(parts: seq<string>, sep: char)
    requires |parts| > 0
    requires forall i :: 0 <= i < |parts| ==> sep !in parts[i]
    ensures Split(Join(parts, sep), sep) == parts
  {
    if |parts| == 1 {
      SplitFree(parts[0], sep);
    } else {
      SplitJoin(parts[1..], sep);
      SplitAfterPiece(parts[0], Join(parts[1..], sep), sep);
    }
  }

  /** A separator-free string is a single piece. */
  lemma {:induction false} SplitFree(p: string, sep: char)
    requires sep !in p
    ensures Split(p, sep) == [p]
  {
    if |p| > 0 {
      assert p[0] != sep;
      SplitFree(p[1..], sep);
      assert [p[0]] + p[1..] == p;
    }
  }

  /** A separator-free piece followed by a separator splits off as one piece. */
  lemma {:induction false} SplitAfterPiece(p: string, tail: string, sep: char)
    requires sep !in p
    ensures Split(p + [sep] + tail, sep) == [p] + Split(tail, sep)
  {
    if |p| == 0 {
      assert p + [sep] + tail == [sep] + tail;
      assert ([sep] + tail)[1..] == tail;
    } else {
      assert (p + [sep] + tail)[1..] == p[1..] + [sep] + tail;
      SplitAfterPiece(p[1..], tail, sep);
      assert [p[0]] + p[1..] == p;
    }
  }

  /** `i[0].upper() + i[1:]`. */
  function Capitalize(piece: string): (r: string)
    requires |piece| > 0
    ensures |r| == |piece|
  {
    [Upper(piece[0])] + piece[1..]
  }

  /** The loop of `formatter`: capitalized pieces, concatenated in order. */
  function CapitalizeAll(parts: seq<string>): (r: Result<string, FormatError>)
    ensures r.Success? && |parts| > 0 ==> |r.value| > 0
  {
    if |parts| == 0 then Success("")
    else if |parts[0]| == 0 then Failure(EmptySegment)
    else
      var rest := CapitalizeAll(parts[1..]);
      if rest.Failure? then rest else Success(Capitalize(parts[0]) + rest.value)
  }

  /**
    `formatter(src, firstUpper)`: it raises exactly on the names that are
    not well-formed (empty, with a leading or trailing '_', or with "__"
    inside), whichever `firstUpper` is.
  */
  function Format(src: string, firstUpper: bool): (r: Result<string, FormatError>)
    ensures r.Failure? <==> !WellFormed(src)
  {
    var parts := Split(src, Sep);
    PiecesNonEmpty(src);
    CapitalizeAllFails(parts);
    var res := CapitalizeAll(parts);
    if res.Failure? || firstUpper then res
    else
      // `res[0]` cannot raise: the first piece was capitalized, so it is non-empty
      assert |res.value| > 0;
      Success([Lower(res.value[0])] + res.value[1..])
  }

  /**
    A name that `formatter` accepts: non-empty, not starting or ending
    with '_', and without two '_' in a row.
  */
  predicate WellFormed(src: string)
  {
    && |src| > 0
    && src[0] != Sep
    && src[|src| - 1] != Sep
    && forall i :: 0 <= i < |src| - 1 ==> !(src[i] == Sep && src[i + 1] == Sep)
  }

  /**
    Reference scan: drop every '_' and upper-case each character that
    starts the name (when `cap`) or follows a '_'.
  */
  function Camel(s: string, cap: bool): (r: string)
  {
    if |s| == 0 then ""
    else if s[0] == Sep then Camel(s[1..], true)
    else [if cap then Upper(s[0]) else s[0]] + Camel(s[1..], false)
  }

  function Count(s: string, c: char): (n: nat)
  {
    if |s| == 0 then 0 else (if s[0] == c then 1 else 0) + Count(s[1..], c)
  }

  predicate NoEmptyPiece(parts: seq<string>)
  {
    forall i :: 0 <= i < |parts| ==> |parts[i]| > 0
  }

  lemma {:induction false} CapitalizeAllFails(parts: seq<string>)
    ensures CapitalizeAll(parts).Failure? <==> !NoEmptyPiece(parts)
  {
    if |parts| > 0 && |parts[0]| > 0 {
      CapitalizeAllFails(parts[1..]);
      assert NoEmptyPiece(parts) <==> NoEmptyPiece(parts[1..]);
    }
  }

  /** Every piece of the split is non-empty exactly for well-formed names. */
  lemma {:induction false} PiecesNonEmpty(s: string)
    ensures NoEmptyPiece(Split(s, Sep)) <==> WellFormed(s)
  {
    if |s| == 0 || s[0] == Sep {
      assert Split(s, Sep)[0] == "";
    } else {
      var rest := Split(s[1..], Sep);
      assert Split(s, Sep) == [[s[0]] + rest[0]] + rest[1..];
      NoEmptyPieceCons([s[0]] + rest[0], rest[1..]);
      if |s| == 1 {
        assert s[1..] == [];
      } else if s[1] == Sep {
        assert s[1..][1..] == s[2..];
        assert rest == [""] + Split(s[2..], Sep);
        assert rest[1..] == Split(s[2..], Sep);
        PiecesNonEmpty(s[2..]);
        WellFormedDrop2(s);
      } else {
        assert rest == [[s[1]] + Split(s[2..], Sep)[0]] + Split(s[2..], Sep)[1..];
        NoEmptyPieceCons(rest[0], rest[1..]);
        assert [rest[0]] + rest[1..] == rest;
        PiecesNonEmpty(s[1..]);
        WellFormedDrop1(s);
      }
    }
  }

  lemma NoEmptyPieceCons(x: string, ps: seq<string>)
    requires |x| > 0
    ensures NoEmptyPiece([x] + ps) <==> NoEmptyPiece(ps)
  {
    if NoEmptyPiece([x] + ps) {
      forall i | 0 <= i < |ps|
        ensures |ps[i]| > 0
      {
        assert ps[i] == ([x] + ps)[i + 1];
      }
    }
  }

  lemma WellFormedDrop1(s: string)
    requires |s| > 1 && s[0] != Sep && s[1] != Sep
    ensures WellFormed(s) <==> WellFormed(s[1..])
  {
    if WellFormed(s[1..]) {
      forall i | 0 <= i < |s| - 1
        ensures !(s[i] == Sep && s[i + 1] == Sep)
      {
        if i > 0 {
          assert s[i] == s[1..][i - 1] && s[i + 1] == s[1..][i];
        }
      }
    }
    if WellFormed(s) {
      forall i | 0 <= i < |s[1..]| - 1
        ensures !(s[1..][i] == Sep && s[1..][i + 1] == Sep)
      {
        assert s[1..][i] == s[i + 1] && s[1..][i + 1] == s[i + 2];
      }
    }
  }

  lemma WellFormedDrop2(s: string)
    requires |s| > 1 && s[0] != Sep && s[1] == Sep
    ensures WellFormed(s) <==> WellFormed(s[2..])
  {
    if WellFormed(s[2..]) {
      forall i | 0 <= i < |s| - 1
        ensures !(s[i] == Sep && s[i + 1] == Sep)
      {
        if i > 1 {
          assert s[i] == s[2..][i - 2] && s[i + 1] == s[2..][i - 1];
        }
      }
    }
    if WellFormed(s) {
      assert s[1] == Sep && s[2] != Sep;
      forall i | 0 <= i < |s[2..]| - 1
        ensures !(s[2..][i] == Sep && s[2..][i + 1] == Sep)
      {
        assert s[2..][i] == s[i + 2] && s[2..][i + 1] == s[i + 3];
      }
    }
  }

  /** The head piece is capitalized when `cap`, the rest are capitalized. */
  function Head(p: string, cap: bool): (h: string)
  {
    if cap && |p| > 0 then [Upper(p[0])] + p[1..] else p
  }

  /** The scan equals the head piece followed by the capitalized other pieces. */
  lemma {:induction false} CamelPieces(s: string, cap: bool)
    requires NoEmptyPiece(Split(s, Sep)[1..])
    ensures CapitalizeAll(Split(s, Sep)[1..]).Success?
    ensures Camel(s, cap) == Head(Split(s, Sep)[0], cap) + CapitalizeAll(Split(s, Sep)[1..]).value
    decreases |s|, 1
  {
    CapitalizeAllFails(Split(s, Sep)[1..]);
    if |s| > 0 {
      if s[0] == Sep {
        CamelPiecesAtSep(s, cap);
      } else {
        CamelPiecesAtChar(s, cap);
      }
    }
  }

  /** A leading '_' closes an empty head piece; the next piece is capitalized. */
  lemma {:induction false} CamelPiecesAtSep(s: string, cap: bool)
    requires |s| > 0 && s[0] == Sep
    requires NoEmptyPiece(Split(s, Sep)[1..])
    ensures CapitalizeAll(Split(s, Sep)[1..]).Success?
    ensures Camel(s, cap) == Head(Split(s, Sep)[0], cap) + CapitalizeAll(Split(s, Sep)[1..]).value
    decreases |s|, 0
  {
    var parts := Split(s, Sep);
    var rest := Split(s[1..], Sep);
    assert parts == [""] + rest;
    assert parts[1..] == rest;
    assert NoEmptyPiece(rest[1..]);
    CamelPieces(s[1..], true);
    CapitalizeAllFails(rest);
    CapitalizeAllFails(rest[1..]);
    assert |rest[0]| > 0;
    assert Head(rest[0], true) == Capitalize(rest[0]);
    assert CapitalizeAll(rest).value == Capitalize(rest[0]) + CapitalizeAll(rest[1..]).value;
    assert Head(parts[0], cap) == "";
    assert Camel(s, cap) == Camel(s[1..], true);
  }

  /** A leading character other than '_' starts the head piece. */
  lemma {:induction false} CamelPiecesAtChar(s: string, cap: bool)
    requires |s| > 0 && s[0] != Sep
    requires NoEmptyPiece(Split(s, Sep)[1..])
    ensures CapitalizeAll(Split(s, Sep)[1..]).Success?
    ensures Camel(s, cap) == Head(Split(s, Sep)[0], cap) + CapitalizeAll(Split(s, Sep)[1..]).value
    decreases |s|, 0
  {
    var parts := Split(s, Sep);
    var rest := Split(s[1..], Sep);
    assert parts == [[s[0]] + rest[0]] + rest[1..];
    assert parts[1..] == rest[1..];
    CamelPieces(s[1..], false);
    CapitalizeAllFails(parts[1..]);
    var c := if cap then Upper(s[0]) else s[0];
    var tail := CapitalizeAll(rest[1..]).value;
    assert Camel(s, cap) == [c] + Camel(s[1..], false);
    assert Camel(s[1..], false) == rest[0] + tail;
    assert Head(parts[0], cap) == [c] + rest[0];
    assert [c] + (rest[0] + tail) == ([c] + rest[0]) + tail;
  }

  /** On a well-formed name `formatter` computes the reference scan. */
  lemma FormatMatchesScan(src: string)
    requires WellFormed(src)
    ensures Format(src, true) == Success(Camel(src, true))
  {
    var parts := Split(src, Sep);
    PiecesNonEmpty(src);
    assert NoEmptyPiece(parts[1..]);
    CamelPieces(src, true);
    CapitalizeAllFails(parts[1..]);
    assert CapitalizeAll(parts).value == Capitalize(parts[0]) + CapitalizeAll(parts[1..]).value;
  }

  /** The scan drops exactly the '_' characters. */
  lemma {:induction false} CamelLength(s: string, cap: bool)
    ensures |Camel(s, cap)| == |s| - Count(s, Sep)
    ensures Sep !in Camel(s, cap)
  {
    if |s| > 0 {
      CamelLength(s[1..], true);
      CamelLength(s[1..], false);
    }
  }

  lemma {:induction false} CountBelow(s: string)
    requires |s| > 0 && s[0] != Sep
    ensures Count(s, Sep) < |s|
  {
    CountAtMost(s[1..]);
  }

  lemma {:induction false} CountAtMost(s: string)
    ensures Count(s, Sep) <= |s|
  {
    if |s| > 0 {
      CountAtMost(s[1..]);
    }
  }

  /**
    A successful result contains no '_' and is `len(src) - count('_')`
    characters long.
  */
  lemma FormatLength(src: string, firstUpper: bool)
    requires Format(src, firstUpper).Success?
    ensures |Format(src, firstUpper).value| == |src| - Count(src, Sep)
    ensures Sep !in Format(src, firstUpper).value
  {
    FormatMatchesScan(src);
    CamelLength(src, true);
    if !firstUpper {
      var c := Camel(src, true);
      assert Format(src, false).value == [Lower(c[0])] + c[1..];
      assert c[0] != Sep;
      assert Lower(c[0]) != Sep;
      forall k | 0 <= k < |c| - 1
        ensures c[1..][k] != Sep
      {
        assert c[1..][k] == c[k + 1];
      }
    }
  }

  /**
    `firstUpper = False` lower-cases the first character of the
    `firstUpper = True` result and leaves the rest unchanged.
  */
  lemma LowerFirstOnly(src: string)
    requires WellFormed(src)
    ensures Format(src, true).Success? && Format(src, false).Success?
    ensures |Format(src, false).value| == |Format(src, true).value| > 0
    ensures Format(src, false).value[0] == Lower(Format(src, true).value[0])
    ensures Format(src, false).value[1..] == Format(src, true).value[1..]
  {
    FormatMatchesScan(src);
    CamelLength(src, true);
    CountBelow(src);
  }

  /**
    A name with no '_' whose first character is already upper-case (such
    as "StateValue") is returned unchanged.
  */
  lemma AlreadyFormatted(name: string)
    requires |name| > 0
    requires Sep !in name
    requires Upper(name[0]) == name[0]
    ensures Format(name, true) == Success(name)
  {
    SplitFree(name, Sep);
    assert [name][1..] == [];
    var cap := Capitalize(name);
    assert cap == name;
    assert CapitalizeAll([name]) == Success(cap + "");
    assert cap + "" == name;
  }

  /** Formatting a formatted name changes nothing. */
  lemma FormatIdempotent(src: string)
    requires Format(src, true).Success?
    ensures Format(Format(src, true).value, true) == Format(src, true)
  {
    var out := Format(src, true).value;
    FormatLength(src, true);
    CountBelow(src);
    FormatMatchesScan(src);
    assert out[0] == Upper(src[0]);
    AlreadyFormatted(out);
  }
}

=== FILE: on_sync_trainer.dfy ===
/**
  The synchronous on-policy trainer: merging the samplers' batches into
  one (`concate`) and the iteration counter advanced by `step` and
  `train`.

  A sampler's batch maps a field name to its rows (the leading tensor
  dimension) or to `None`; the learner's state, the sampling and the
  gradient/update pair of one epoch are parameters.
*/
module OnSyncTrainer {
  import opened Wrappers

  type Batch<T> = map<string, Option<seq<T>>>

  /**
    Why `concate` raises: indexing `samples[0]` of an empty list, or a
    field of the first batch that a batch lacks or holds `None` for
    (`KeyError` / the `torch.cat` type error).
  */
  datatype ConcateError = NoSamples | FieldMismatch

  /** The fields `concate` keeps: those of the first batch that hold rows. */
  function Fields<T>(first: Batch<T>): (fields: set<string>)
  {
    set k | k in first.Keys && first[k].Some?
  }

  /** Every batch holds rows for field `k`. */
  predicate HasRows<T>(samples: seq<Batch<T>>, k: string)
  {
    forall j :: 0 <= j < |samples| ==> k in samples[j] && samples[j][k].Some?
  }

  /** `torch.cat(..., dim=0)` of field `k` over the batches, in sampler order. */
  function Cat<T>(samples: seq<Batch<T>>, k: string): (r: seq<T>)
    requires HasRows(samples, k)
  {
    if |samples| == 0 then []
    else Cat(samples[..|samples| - 1], k) + samples[|samples| - 1][k].value
  }

  /** Total number of rows of field `k` over the batches. */
  function RowCount<T>(samples: seq<Batch<T>>, k: string): (n: nat)
    requires HasRows(samples, k)
  {
    if |samples| == 0 then 0
    else RowCount(samples[..|samples| - 1], k) + |samples[|samples| - 1][k].value|
  }

  predicate Compatible<T>(samples: seq<Batch<T>>)
    requires |samples| > 0
  {
    forall k :: k in Fields(samples[0]) ==> HasRows(samples, k)
  }

  /**
    `concate`: the merged batch has exactly the fields of the first batch
    that hold rows; fields that only later batches carry are dropped.
  */
  function Concate<T>(samples: seq<Batch<T>>): (r: Result<map<string, seq<T>>, ConcateError>)
    ensures |samples| == 0 <==> r == Failure(NoSamples)
    ensures r.Success? <==> |samples| > 0 && Compatible(samples)
    ensures r.Success? ==> r.value.Keys == Fields(samples[0])
  {
    if |samples| == 0 then Failure(NoSamples)
    else if Compatible(samples) then Success(map k | k in Fields(samples[0]) :: Cat(samples, k))
    else Failure(FieldMismatch)
  }

  /** The merged field has as many rows as all batches together. */
  lemma {:induction false} CatLength<T>(samples: seq<Batch<T>>, k: string)
    requires HasRows(samples, k)
    ensures |Cat(samples, k)| == RowCount(samples, k)
  {
    if |samples| > 0 {
      CatLength(samples[..|samples| - 1], k);
    }
  }

  /**
    The rows of batch `j` sit, unchanged and in order, right after the
    rows of the batches before it.
  */
  lemma {:induction false} CatContents<T>(samples: seq<Batch<T>>, k: string, j: nat, i: nat)
    requires HasRows(samples, k)
    requires j < |samples| && i < |samples[j][k].value|
    ensures HasRows(samples[..j], k)
    ensures RowCount(samples[..j], k) + i < |Cat(samples, k)|
    ensures Cat(samples, k)[RowCount(samples[..j], k) + i] == samples[j][k].value[i]
  {
    var n := |samples|;
    var prefix := samples[..n - 1];
    assert HasRows(prefix, k);
    CatLength(prefix, k);
    if j == n - 1 {
      assert samples[..j] == prefix;
    } else {
      assert prefix[..j] == samples[..j];
      CatContents(prefix, k, j, i);
    }
  }

  /** Merging a single sampler's batch returns its fields that hold rows. */
  lemma ConcateSingle<T>(b: Batch<T>)
    ensures Concate([b]).Success?
    ensures forall k :: k in Fields(b) ==> Concate([b]).value[k] == b[k].value
  {
    forall k | k in Fields(b)
      ensures Cat([b], k) == b[k].value
    {
      assert [b][..0] == [];
    }
  }

  /**
    The merged field `k` of a successful `concate`: its length is the
    total row count and batch `j`'s rows follow those of batches 0..j-1.
  */
  lemma ConcateField<T>(samples: seq<Batch<T>>, k: string, j: nat, i: nat)
    requires Concate(samples).Success?
    requires k in Concate(samples).value
    requires j < |samples| && i < |samples[j][k].value|
    ensures HasRows(samples, k)
    ensures |Concate(samples).value[k]| == RowCount(samples, k)
    ensures HasRows(samples[..j], k)
    ensures RowCount(samples[..j], k) + i < |Concate(samples).value[k]|
    ensures Concate(samples).value[k][RowCount(samples[..j], k) + i] == samples[j][k].value[i]
  {
    CatLength(samples, k);
    CatContents(samples, k, j, i);
  }

  /**
    The trainer's counters, its logging, evaluation and saving intervals
    (`log_save_interval`, `eval_interval`, `apprfunc_save_interval`) and
    the learner state they drive.
  */
  datatype Trainer<S> = Trainer(learner: S, iteration: nat, maxIteration: nat, numEpoch: nat,
                                logInterval: nat, evalInterval: nat, saveInterval: nat)

  /**
    What one epoch leaves behind: the learner state, and what
    `compute_gradient` or `update` raised, if either did. A raising epoch
    may already have moved part of the state (the controller steps before
    the loss is reshaped), so the state is kept in both cases.
  */
  datatype EpochOutcome<S, E> = EpochOutcome(state: S, error: Option<E>)

  /**
    One epoch of `step`: load the central weights, compute the gradient
    at the given iteration on the merged batch, apply the update.
  */
  type Epoch<!S, !T, !E> = (S, map<string, seq<T>>, nat) -> EpochOutcome<S, E>

  /**
    The epoch loop of `step` run for up to `n` epochs: the state it leaves,
    how many epochs completed (each one increment of the counter), and the
    error of the epoch that raised, after which no further epoch runs.
  */
  datatype EpochRun<S, E> = EpochRun(state: S, done: nat, error: Option<E>)

  /** `n` epochs on the same batch, numbered from `start`, stopping at the first that raises. */
  function Epochs<S, T, E>(s: S, data: map<string, seq<T>>, start: nat, n: nat, epoch: Epoch<S, T, E>): (r: EpochRun<S, E>)
    ensures r.done <= n
    ensures r.error.None? ==> r.done == n
    ensures r.error.Some? ==> r.done < n
  {
    if n == 0 then EpochRun(s, 0, None)
    else
      var prev := Epochs(s, data, start, n - 1, epoch);
      if prev.error.Some? then prev
      else
        var o := epoch(prev.state, data, start + n - 1);
        EpochRun(o.state, if o.error.None? then n else n - 1, o.error)
  }

  /**
    Running `a` epochs and then `b` more, numbered on, is running `a + b`
    epochs; when one of the first `a` raises, the later ones never run.
  */
  lemma {:induction false} EpochsCompose<S, T, E>(s: S, data: map<string, seq<T>>, start: nat, a: nat, b: nat,
                                                 epoch: Epoch<S, T, E>)
    ensures var first := Epochs(s, data, start, a, epoch);
            var whole := Epochs(s, data, start, a + b, epoch);
            if first.error.Some? then whole == first
            else
              var rest := Epochs(first.state, data, start + a, b, epoch);
              whole == EpochRun(rest.state, a + rest.done, rest.error)
  {
    if b > 0 {
      EpochsCompose(s, data, start, a, b - 1, epoch);
      var first := Epochs(s, data, start, a, epoch);
      if first.error.None? {
        var rest := Epochs(first.state, data, start + a, b, epoch);
        var rest' := Epochs(first.state, data, start + a, b - 1, epoch);
        assert start + a + b - 1 == start + (a + b) - 1;
        if rest'.error.None? {
          assert rest'.done == b - 1;
        }
      }
    }
  }

  /**
    When the loop stops on an error, the epochs before it all completed
    and the epoch numbered `start + done`, run on the state they left,
    raised that error and left the returned state.
  */
  lemma {:induction false} EpochsFailure<S, T, E>(s: S, data: map<string, seq<T>>, start: nat, n: nat, epoch: Epoch<S, T, E>)
    ensures var r := Epochs(s, data, start, n, epoch);
            var before := Epochs(s, data, start, r.done, epoch);
            r.error.Some? ==>
              && before.error.None?
              && epoch(before.state, data, start + r.done) == EpochOutcome(r.state, r.error)
  {
    if n > 0 {
      var prev := Epochs(s, data, start, n - 1, epoch);
      if prev.error.Some? {
        EpochsFailure(s, data, start, n - 1, epoch);
      }
    }
  }

  /** The loop completes all `n` epochs exactly when no epoch of the chain raises. */
  lemma {:induction false} EpochsSucceed<S, T, E>(s: S, data: map<string, seq<T>>, start: nat, n: nat, epoch: Epoch<S, T, E>)
    ensures Epochs(s, data, start, n, epoch).error.None? <==>
      forall k :: 0 <= k < n ==> epoch(Epochs(s, data, start, k, epoch).state, data, start + k).error.None?
  {
    if n > 0 {
      EpochsSucceed(s, data, start, n - 1, epoch);
      assert start + (n - 1) == start + n - 1;
    }
  }

  /**
    Why `step` raises: the merge fails; an epoch's `compute_gradient` or
    `update` raises; an interval is zero, so a `%` by it raises
    ZeroDivisionError; or no epoch ran, so the logging branch reads the
    gradient telemetry that was never bound (UnboundLocalError).
  */
  datatype StepError<E> = Merge(ConcateError) | Learner(E) | ZeroInterval | NoEpochTelemetry

  /**
    What a `step` call leaves behind: the trainer (advanced by the epochs
    that completed, even when a later epoch or the bookkeeping raises)
    and the error, if any.
  */
  datatype StepOutcome<S, E> = StepOutcome(trainer: Trainer<S>, error: Option<StepError<E>>)

  /**
    The bookkeeping after the epochs, in source order: the logging test
    (which needs the gradient telemetry of at least one epoch when it
    fires), then the evaluation and the saving tests.
  */
  function Bookkeeping<S, E>(t: Trainer<S>, ranEpoch: bool): (e: Option<StepError<E>>)
    ensures e.None? <==> 0 < t.logInterval && 0 < t.evalInterval && 0 < t.saveInterval
                          && (ranEpoch || t.iteration % t.logInterval != 0)
  {
    if t.logInterval == 0 then Some(ZeroInterval)
    else if t.iteration % t.logInterval == 0 && !ranEpoch then Some(NoEpochTelemetry)
    else if t.evalInterval == 0 || t.saveInterval == 0 then Some(ZeroInterval)
    else None
  }

  /**
    `step`: merge the sampled batches, run `num_epoch` epochs, each one
    gradient/update pair followed by one increment of `iteration`, then
    the logging, evaluation and saving tests. A failed merge leaves the
    trainer as it was; a raising epoch leaves it with the epochs before it
    counted and skips the tests; a failing test leaves it advanced.
  */
  method Step<S, T, E>(t: Trainer<S>, samples: seq<Batch<T>>, epoch: Epoch<S, T, E>) returns (r: StepOutcome<S, E>)
    ensures Concate(samples).Failure? ==> r == StepOutcome(t, Some(Merge(Concate(samples).error)))
    ensures Concate(samples).Success? ==>
      var run := Epochs(t.learner, Concate(samples).value, t.iteration, t.numEpoch, epoch);
      && r.trainer == t.(learner := run.state, iteration := t.iteration + run.done)
      && (run.error.Some? ==> r.error == Some(Learner(run.error.value)))
    ensures r.error.None? <==>
      && Concate(samples).Success?
      && Epochs(t.learner, Concate(samples).value, t.iteration, t.numEpoch, epoch).error.None?
      && 0 < t.logInterval && 0 < t.evalInterval && 0 < t.saveInterval
      && (0 < t.numEpoch || t.iteration % t.logInterval != 0)
    ensures Concate(samples).Success? && 0 < t.logInterval && t.numEpoch == 0 && t.iteration % t.logInterval == 0
      ==> r.error == Some(NoEpochTelemetry)
  {
    var merged := Concate(samples);
    if merged.Failure? {
      return StepOutcome(t, Some(Merge(merged.error)));
    }
    var data := merged.value;
    var s, it := t.learner, t.iteration;
    for e := 0 to t.numEpoch
      invariant it == t.iteration + e
      invariant Epochs(t.learner, data, t.iteration, e, epoch) == EpochRun(s, e, None)
    {
      var o := epoch(s, data, it);
      if o.error.Some? {
        EpochsCompose(t.learner, data, t.iteration, e + 1, t.numEpoch - (e + 1), epoch);
        return StepOutcome(t.(learner := o.state, iteration := it), Some(Learner(o.error.value)));
      }
      s := o.state;
      it := it + 1;
    }
    var next := t.(learner := s, iteration := it);
    r := StepOutcome(next, Bookkeeping(next, 0 < t.numEpoch));
  }

  /** Number of `step` calls `train` makes: ceil((max - iteration) / num_epoch). */
  function StepsNeeded(iteration: nat, maxIteration: nat, numEpoch: nat): (n: nat)
    requires numEpoch > 0
  {
    if maxIteration <= iteration then 0 else (maxIteration - iteration + numEpoch - 1) / numEpoch
  }

  /**
    `train`: call `step` while `iteration < max_iteration`, drawing the
    batches of each step from `sample` (indexed by the iteration at which
    the step starts). When no step raises, the counter has reached the
    maximum and overshoots it by less than one step; a trainer already at
    or beyond the maximum is returned unchanged.
  */
  method Train<S, T, E>(t: Trainer<S>, sample: nat -> seq<Batch<T>>, epoch: Epoch<S, T, E>) returns (r: StepOutcome<S, E>)
    requires t.numEpoch > 0
    ensures t.maxIteration <= t.iteration ==> r == StepOutcome(t, None)
    ensures r.error.None? ==> t.maxIteration <= r.trainer.iteration
    ensures r.error.None? && t.iteration < t.maxIteration ==> r.trainer.iteration < t.maxIteration + t.numEpoch
    ensures r.error.None? ==> r.trainer.iteration == t.iteration + t.numEpoch * StepsNeeded(t.iteration, t.maxIteration, t.numEpoch)
  {
    var cur := t;
    var steps: nat := 0;
    while cur.iteration < cur.maxIteration
      invariant cur.maxIteration == t.maxIteration && cur.numEpoch == t.numEpoch
      invariant cur.iteration == t.iteration + t.numEpoch * steps
      invariant steps > 0 ==> cur.iteration < t.maxIteration + t.numEpoch
      invariant steps == 0 ==> cur == t
      invariant cur.iteration < t.maxIteration ==> steps < StepsNeeded(t.iteration, t.maxIteration, t.numEpoch)
      invariant t.maxIteration <= cur.iteration ==> steps == StepsNeeded(t.iteration, t.maxIteration, t.numEpoch)
      decreases t.maxIteration - cur.iteration
    {
      var next := Step(cur, sample(cur.iteration), epoch);
      if next.error.Some? {
        return next;
      }
      cur := next.trainer;
      steps := steps + 1;
      StepsNeededCount(t.iteration, t.maxIteration, t.numEpoch, steps);
    }
    r := StepOutcome(cur, None);
  }

  /**
    After `k` steps from `iteration`, the counter is below the maximum
    exactly when fewer than `StepsNeeded` steps were made.
  */
  lemma StepsNeededCount(iteration: nat, maxIteration: nat, numEpoch: nat, k: nat)
    requires numEpoch > 0
    requires iteration < maxIteration
    ensures iteration + numEpoch * k < maxIteration <==> k < StepsNeeded(iteration, maxIteration, numEpoch)
    ensures maxIteration <= iteration + numEpoch * k <==> StepsNeeded(iteration, maxIteration, numEpoch) <= k
  {
    var gap := maxIteration - iteration;
    var q := (gap + numEpoch - 1) / numEpoch;
    var rem := (gap + numEpoch - 1) % numEpoch;
    assert gap + numEpoch - 1 == q * numEpoch + rem;
    if k < q {
      assert k + 1 <= q;
      assert numEpoch * (k + 1) <= numEpoch * q;
    } else {
      assert numEpoch * q <= numEpoch * k;
    }
  }
}

=== FILE: real_math.dfy ===
/**
  Real-valued helpers shared by the learner: clamping (numpy.clip /
  torch.clamp), powers, finite sums, means, squared-error means and
  the abstract exponential.
*/
module RealMath {

  function Abs(x: real): (r: real)
    ensures r >= 0.0
    ensures r == x || r == -x
  {
    if x < 0.0 then -x else x
  }

  /** numpy.clip / torch.clamp with a non-empty band. */
  function Clamp(x: real, lo: real, hi: real): (r: real)
    requires lo <= hi
    ensures lo <= r <= hi
    ensures lo <= x <= hi ==> r == x
    ensures x < lo ==> r == lo
    ensures hi < x ==> r == hi
  {
    if x < lo then lo else if hi < x then hi else x
  }

  lemma ClampMonotone(x: real, y: real, lo: real, hi: real)
    requires lo <= hi
    requires x <= y
    ensures Clamp(x, lo, hi) <= Clamp(y, lo, hi)
  {
  }

  /** b ** n for a natural exponent. */
  function Pow(b: real, n: nat): (r: real)
    ensures 0.0 < b ==> 0.0 < r
    ensures 0.0 <= b <= 1.0 ==> 0.0 <= r <= 1.0
  {
    if n == 0 then 1.0
    else
      var p := Pow(b, n - 1);
      UnitProduct(b, p);
      b * p
  }

  lemma UnitProduct(a: real, b: real)
    ensures 0.0 <= a <= 1.0 && 0.0 <= b <= 1.0 ==> 0.0 <= a * b <= 1.0
    ensures 0.0 < a && 0.0 < b ==> 0.0 < a * b
  {
    if 0.0 <= a <= 1.0 && 0.0 <= b <= 1.0 {
      assert a * b <= 1.0 * b;
    }
  }

  lemma MulNonNegative(a: real, b: real)
    requires 0.0 <= a && 0.0 <= b
    ensures 0.0 <= a * b
  {
  }

  lemma MulAssociative(a: real, b: real, c: real)
    ensures a * (b * c) == (a * b) * c
  {
  }

  /** Scaling by a factor in [0, 1] moves a value towards zero without crossing it. */
  lemma ScaleByFraction(f: real, x: real)
    requires 0.0 <= f <= 1.0
    ensures 0.0 <= x ==> 0.0 <= f * x <= x
    ensures x <= 0.0 ==> x <= f * x <= 0.0
  {
    if 0.0 <= x {
      MulNonNegative(1.0 - f, x);
      MulNonNegative(f, x);
    } else {
      MulNonNegative(1.0 - f, -x);
      MulNonNegative(f, -x);
    }
  }

  /** Sum of a sequence, accumulated left to right. */
  function Sum(s: seq<real>): (r: real)
  {
    if |s| == 0 then 0.0 else Sum(s[..|s| - 1]) + s[|s| - 1]
  }

  lemma {:induction false} SumBounds(s: seq<real>, lo: real, hi: real)
    requires forall i :: 0 <= i < |s| ==> lo <= s[i] <= hi
    ensures lo * (|s| as real) <= Sum(s) <= hi * (|s| as real)
  {
    if |s| > 0 {
      SumBounds(s[..|s| - 1], lo, hi);
    }
  }

  /** A sum of non-negative terms is zero exactly when every term is. */
  lemma {:induction false} SumNonNegativeZero(s: seq<real>)
    requires forall i :: 0 <= i < |s| ==> 0.0 <= s[i]
    ensures 0.0 <= Sum(s)
    ensures Sum(s) == 0.0 <==> forall i :: 0 <= i < |s| ==> s[i] == 0.0
  {
    if |s| > 0 {
      var p := s[..|s| - 1];
      SumNonNegativeZero(p);
      if Sum(s) == 0.0 {
        assert forall i :: 0 <= i < |p| ==> s[i] == p[i];
      }
    }
  }

  /** Dividing every term by c divides the sum by c. */
  lemma {:induction false} SumDivide(s: seq<real>, t: seq<real>, c: real)
    requires c != 0.0
    requires |t| == |s|
    requires forall i :: 0 <= i < |s| ==> t[i] == s[i] / c
    ensures Sum(t) == Sum(s) / c
  {
    if |s| > 0 {
      SumDivide(s[..|s| - 1], t[..|t| - 1], c);
    }
  }

  /** Scaling every term by c scales the sum by c. */
  lemma {:induction false} SumScale(s: seq<real>, t: seq<real>, c: real)
    requires |t| == |s|
    requires forall i :: 0 <= i < |s| ==> t[i] == s[i] * c
    ensures Sum(t) == Sum(s) * c
  {
    if |s| > 0 {
      SumScale(s[..|s| - 1], t[..|t| - 1], c);
    }
  }

  lemma {:induction false} SumZeros(s: seq<real>)
    requires forall i :: 0 <= i < |s| ==> s[i] == 0.0
    ensures Sum(s) == 0.0
  {
    if |s| > 0 {
      SumZeros(s[..|s| - 1]);
    }
  }

  lemma {:induction false} SumMonotone(s: seq<real>, t: seq<real>)
    requires |s| == |t|
    requires forall i :: 0 <= i < |s| ==> s[i] <= t[i]
    ensures Sum(s) <= Sum(t)
  {
    if |s| > 0 {
      SumMonotone(s[..|s| - 1], t[..|t| - 1]);
    }
  }

  /** Shifting every term by -c shifts the sum by -c per term. */
  lemma {:induction false} SumShift(s: seq<real>, t: seq<real>, c: real)
    requires |t| == |s|
    requires forall i :: 0 <= i < |s| ==> t[i] == s[i] - c
    ensures Sum(t) == Sum(s) - c * (|s| as real)
  {
    if |s| > 0 {
      SumShift(s[..|s| - 1], t[..|t| - 1], c);
    }
  }

  /** Reflecting every term about c. */
  lemma {:induction false} SumReflect(s: seq<real>, t: seq<real>, c: real)
    requires |t| == |s|
    requires forall i :: 0 <= i < |s| ==> t[i] == c - s[i]
    ensures Sum(t) == c * (|s| as real) - Sum(s)
  {
    if |s| > 0 {
      SumReflect(s[..|s| - 1], t[..|t| - 1], c);
    }
  }

  /** Mean of a non-empty sequence (torch .mean()). */
  function Mean(s: seq<real>): (r: real)
    requires |s| > 0
  {
    Sum(s) / (|s| as real)
  }

  lemma MeanBounds(s: seq<real>, lo: real, hi: real)
    requires |s| > 0
    requires forall i :: 0 <= i < |s| ==> lo <= s[i] <= hi
    ensures lo <= Mean(s) <= hi
  {
    SumBounds(s, lo, hi);
    var n := |s| as real;
    assert Mean(s) * n == Sum(s);
  }

  lemma MeanMonotone(s: seq<real>, t: seq<real>)
    requires |s| == |t| > 0
    requires forall i :: 0 <= i < |s| ==> s[i] <= t[i]
    ensures Mean(s) <= Mean(t)
  {
    SumMonotone(s, t);
    DivideMonotone(Sum(s), Sum(t), |s| as real);
  }

  lemma DivideMonotone(a: real, b: real, c: real)
    requires a <= b
    requires 0.0 < c
    ensures a / c <= b / c
  {
    var d := b / c - a / c;
    assert d * c == b - a;
    PositiveFactor(d, c);
  }

  /** A product with a positive factor keeps the sign of the other factor. */
  lemma PositiveFactor(x: real, c: real)
    requires 0.0 < c
    requires 0.0 <= x * c
    ensures 0.0 <= x
  {
    if x < 0.0 {
      UnitProduct(-x, c);
      assert false;
    }
  }

  /** The reciprocal of a value at least one lies in (0, 1]. */
  lemma ReciprocalAtMostOne(total: real)
    requires 1.0 <= total
    ensures 0.0 < 1.0 / total <= 1.0
  {
    DivideMonotone(1.0, total, total);
    DivideMonotone(0.0, 1.0, total);
    assert (1.0 / total) * total == 1.0;
  }

  /** A mean equals c exactly when the sum equals c per term. */
  lemma MeanEquals(s: seq<real>, c: real)
    requires |s| > 0
    ensures Mean(s) == c <==> Sum(s) == c * (|s| as real)
  {
    QuotientEquals(Sum(s), |s| as real, c);
  }

  lemma QuotientEquals(sum: real, n: real, c: real)
    requires 0.0 < n
    ensures sum / n == c <==> sum == c * n
  {
    var q := sum / n;
    assert q * n == sum;
    if sum == c * n {
      assert (c * n) / n == c;
    }
  }

  /** A mean of terms at most `hi` reaches `hi` exactly when every term equals `hi`. */
  lemma MeanAtUpper(s: seq<real>, hi: real)
    requires |s| > 0
    requires forall i :: 0 <= i < |s| ==> s[i] <= hi
    ensures Mean(s) == hi <==> forall i :: 0 <= i < |s| ==> s[i] == hi
  {
    MeanEquals(s, hi);
    var gap := seq(|s|, i requires 0 <= i < |s| => hi - s[i]);
    SumReflect(s, gap, hi);
    SumNonNegativeZero(gap);
    assert (forall i :: 0 <= i < |s| ==> gap[i] == 0.0) <==> (forall i :: 0 <= i < |s| ==> s[i] == hi);
  }

  /** A mean of terms at least `lo` reaches `lo` exactly when every term equals `lo`. */
  lemma MeanAtLower(s: seq<real>, lo: real)
    requires |s| > 0
    requires forall i :: 0 <= i < |s| ==> lo <= s[i]
    ensures Mean(s) == lo <==> forall i :: 0 <= i < |s| ==> s[i] == lo
  {
    MeanEquals(s, lo);
    var gap := seq(|s|, i requires 0 <= i < |s| => s[i] - lo);
    SumShift(s, gap, lo);
    SumNonNegativeZero(gap);
    assert (forall i :: 0 <= i < |s| ==> gap[i] == 0.0) <==> (forall i :: 0 <= i < |s| ==> s[i] == lo);
  }

  /** Column `j` of a batch of rows. */
  function Column(rows: seq<seq<real>>, j: nat): (c: seq<real>)
    requires forall i :: 0 <= i < |rows| ==> j < |rows[i]|
    ensures |c| == |rows|
    ensures forall i :: 0 <= i < |rows| ==> c[i] == rows[i][j]
  {
    seq(|rows|, i requires 0 <= i < |rows| => rows[i][j])
  }

  /** Row-major concatenation of a batch of rows (the elements torch sees). */
  function Flatten(rows: seq<seq<real>>): (r: seq<real>)
  {
    if |rows| == 0 then [] else Flatten(rows[..|rows| - 1]) + rows[|rows| - 1]
  }

  lemma {:induction false} FlattenLength(rows: seq<seq<real>>, m: nat)
    requires forall i :: 0 <= i < |rows| ==> |rows[i]| == m
    ensures |Flatten(rows)| == |rows| * m
  {
    if |rows| > 0 {
      FlattenLength(rows[..|rows| - 1], m);
    }
  }

  /**
    Flattening rows of one common length loses nothing: two batches of
    such rows flatten to the same sequence exactly when they agree
    entry by entry.
  */
  lemma {:induction false} FlattenEqual(xs: seq<seq<real>>, ys: seq<seq<real>>, m: nat)
    requires |xs| == |ys|
    requires forall i :: 0 <= i < |xs| ==> |xs[i]| == m && |ys[i]| == m
    ensures Flatten(xs) == Flatten(ys) <==> forall i, j :: 0 <= i < |xs| && 0 <= j < m ==> xs[i][j] == ys[i][j]
  {
    if |xs| > 0 {
      var n := |xs|;
      var px, py := xs[..n - 1], ys[..n - 1];
      FlattenEqual(px, py, m);
      FlattenLength(px, m);
      FlattenLength(py, m);
      var fx, fy := Flatten(px), Flatten(py);
      assert Flatten(xs) == fx + xs[n - 1];
      assert Flatten(ys) == fy + ys[n - 1];
      if Flatten(xs) == Flatten(ys) {
        assert fx == Flatten(xs)[..|fx|] == fy;
        assert xs[n - 1] == Flatten(xs)[|fx|..] == ys[n - 1];
        forall i, j | 0 <= i < n && 0 <= j < m
          ensures xs[i][j] == ys[i][j]
        {
          if i < n - 1 {
            assert px[i] == xs[i] && py[i] == ys[i];
          }
        }
      }
      if forall i, j :: 0 <= i < n && 0 <= j < m ==> xs[i][j] == ys[i][j] {
        forall i, j | 0 <= i < n - 1 && 0 <= j < m
          ensures px[i][j] == py[i][j]
        {
          assert px[i] == xs[i] && py[i] == ys[i];
        }
        assert xs[n - 1] == ys[n - 1];
      }
    }
  }

  /**
    ((xs - ys) ** 2).mean(): a squared-error loss is never negative, and
    it is zero exactly when the predictions equal the targets.
  */
  function SquaredError(xs: seq<real>, ys: seq<real>): (r: real)
    requires |xs| == |ys| > 0
    ensures 0.0 <= r
    ensures r == 0.0 <==> xs == ys
  {
    var sq := seq(|xs|, i requires 0 <= i < |xs| => Product(xs[i] - ys[i], xs[i] - ys[i]));
    SquaresNonNegative(xs, ys, sq);
    QuotientEquals(Sum(sq), |xs| as real, 0.0);
    Sum(sq) / (|xs| as real)
  }

  lemma SquaresNonNegative(xs: seq<real>, ys: seq<real>, sq: seq<real>)
    requires |xs| == |ys| == |sq|
    requires forall i :: 0 <= i < |xs| ==> sq[i] == Product(xs[i] - ys[i], xs[i] - ys[i])
    ensures 0.0 <= Sum(sq)
    ensures Sum(sq) == 0.0 <==> xs == ys
  {
    forall i | 0 <= i < |xs|
      ensures 0.0 <= sq[i]
      ensures sq[i] == 0.0 <==> xs[i] == ys[i]
    {
      SquareSign(xs[i] - ys[i]);
    }
    SumNonNegativeZero(sq);
    if Sum(sq) == 0.0 {
      assert forall i :: 0 <= i < |xs| ==> xs[i] == ys[i];
    }
  }

  /**
    A product of two reals, kept behind a name so that the sign facts
    below are stated about two factors rather than a square.
  */
  function Product(a: real, b: real): (r: real)
    ensures 0.0 < a && 0.0 < b ==> 0.0 < r
  {
    a * b
  }

  /** A square is non-negative and zero only at zero. */
  lemma SquareSign(d: real)
    ensures 0.0 <= Product(d, d)
    ensures Product(d, d) == 0.0 <==> d == 0.0
  {
    if d < 0.0 {
      assert Product(d, d) == Product(-d, -d);
    } else if d == 0.0 {
      assert Product(d, d) == 0.0 * 0.0;
    }
  }

  /** The exponential is strictly positive. */
  ghost predicate ExpPositive(exp: real -> real)
  {
    forall x :: 0.0 < exp(x)
  }

  /**
    The properties of the exponential that the learner relies on:
    strictly positive and strictly increasing.
  */
  ghost predicate ExpLike(exp: real -> real)
  {
    && ExpPositive(exp)
    && (forall x, y :: x < y ==> exp(x) < exp(y))
  }
}

=== FILE: spil_controller.dfy ===
/**
  The separated proportional-integral (PI) controller that turns the
  estimated probability of staying safe into a Lagrange multiplier
  (`spil_get_weight`), and the second separation rule used to build the
  regression target of the multiplier network (`compute_loss_v`).

  The controller's persistent fields (`delta_i`, `safe_prob_pre`, `lam`)
  are threaded explicitly as a `ControllerState` record.
*/
module SpilController {
  import opened RealMath

  const Kp: real := 40.0
  const Ki: real := 0.07
  const Kd: real := 0.0
  /** Target probability of a safe rollout, per constraint dimension. */
  const ChanceThreshold: real := 0.99
  /** Upper clamp of the integral accumulator. */
  const IntegralBound: real := 99999.0
  /** Upper clamp of the multiplier (and of the derivative term). */
  const LamBound: real := 3333.0
  /** Damping applied to errors in the middle band 0.1 < |dp| <= 0.2. */
  const MidDamping: real := 0.7
  /** Factor applied beyond 0.2 by the closed-form controller (`delta_p * 0`). */
  const ClosedFormFarFactor: real := 0.0
  /** Factor applied beyond 0.2 by the multiplier-network target (`delta_p * 0.1`). */
  const NetworkFarFactor: real := 0.1

  /**
    Integral separation of an error `dp`: two successive `where`s, the
    first damping |dp| > 0.1 by 0.7, the second overriding |dp| > 0.2
    with `far * dp`. The boundaries 0.1 and 0.2 belong to the lower band.
  */
  function Separate(dp: real, far: real): (r: real)
    ensures Abs(dp) <= 0.1 ==> r == dp
    ensures 0.1 < Abs(dp) <= 0.2 ==> r == MidDamping * dp
    ensures 0.2 < Abs(dp) ==> r == far * dp
  {
    var near := if Abs(dp) > 0.1 then dp * MidDamping else dp;
    if Abs(dp) > 0.2 then dp * far else near
  }

  /**
    With a far factor in [0, 1] separation never amplifies the error and
    never flips its sign: it only damps the integral contribution.
  */
  lemma SeparateDamps(dp: real, far: real)
    requires 0.0 <= far <= 1.0
    ensures Abs(Separate(dp, far)) <= Abs(dp)
    ensures 0.0 <= dp ==> 0.0 <= Separate(dp, far)
    ensures dp <= 0.0 ==> Separate(dp, far) <= 0.0
  {
    if Abs(dp) > 0.2 {
      ScaleByFraction(far, dp);
    }
  }

  datatype ControllerState = ControllerState(
    deltaI: seq<real>,       // integral accumulator, one entry per constraint
    safeProbPre: seq<real>,  // safe probability seen by the previous call
    lam: seq<real>)          // multiplier stored for the policy loss

  /** The state has `m` entries per field and a clamped accumulator. */
  predicate Valid(st: ControllerState, m: nat)
  {
    && |st.deltaI| == m
    && |st.safeProbPre| == m
    && |st.lam| == m
    && forall i :: 0 <= i < m ==> 0.0 <= st.deltaI[i] <= IntegralBound
  }

  /** The state at construction: accumulator and previous probability zero. */
  function Init(m: nat): (st: ControllerState)
    ensures Valid(st, m)
    ensures forall i :: 0 <= i < m ==> st.deltaI[i] == 0.0 && st.safeProbPre[i] == 0.0
  {
    var zeros := seq(m, i => 0.0);
    ControllerState(zeros, zeros, zeros)
  }

  /** Result of one controller step: the next state and the multiplier it computed. */
  datatype WeightStep = WeightStep(state: ControllerState, computed: seq<real>)

  /** The updated accumulator entry for one constraint. */
  function NextIntegral(deltaI: real, safeProb: real): (r: real)
  {
    Clamp(deltaI + Separate(ChanceThreshold - safeProb, ClosedFormFarFactor), 0.0, IntegralBound)
  }

  /**
    `spil_get_weight`: one step of the separated PI controller. The
    multiplier it computes lies in [0, 3333], but the stored multiplier is
    `lam * 0 + 0`, so what the policy loss consumes is always zero.
  */
  function GetWeight(st: ControllerState, safeProb: seq<real>): (w: WeightStep)
    requires |st.deltaI| == |safeProb| && |st.safeProbPre| == |safeProb|
    ensures Valid(w.state, |safeProb|)
    ensures w.state.safeProbPre == safeProb
    ensures forall i :: 0 <= i < |safeProb| ==> w.state.deltaI[i] == NextIntegral(st.deltaI[i], safeProb[i])
    ensures |w.computed| == |safeProb|
    ensures forall i :: 0 <= i < |safeProb| ==> 0.0 <= w.computed[i] <= LamBound
    ensures forall i :: 0 <= i < |safeProb| ==> w.state.lam[i] == 0.0
  {
    var m := |safeProb|;
    var dp := seq(m, i requires 0 <= i < m => ChanceThreshold - safeProb[i]);
    var dI := seq(m, i requires 0 <= i < m => NextIntegral(st.deltaI[i], safeProb[i]));
    var dd := seq(m, i requires 0 <= i < m => Clamp(st.safeProbPre[i] - safeProb[i], 0.0, LamBound));
    var lam := seq(m, i requires 0 <= i < m => Clamp(Ki * dI[i] + Kp * dp[i] + Kd * dd[i], 0.0, LamBound));
    WeightStep(ControllerState(dI, safeProb, seq(m, i requires 0 <= i < m => lam[i] * 0.0 + 0.0)), lam)
  }

  /**
    Anti-windup: when the constraint is over-satisfied (safe probability
    at or above the threshold) the accumulator does not grow, and it
    never goes below zero.
  */
  lemma OverSatisfiedNoWindup(deltaI: real, safeProb: real)
    requires 0.0 <= deltaI <= IntegralBound
    requires ChanceThreshold <= safeProb
    ensures 0.0 <= NextIntegral(deltaI, safeProb) <= deltaI
  {
    SeparateDamps(ChanceThreshold - safeProb, ClosedFormFarFactor);
  }

  /** An error beyond the 0.2 band leaves the accumulator where it was. */
  lemma FarErrorFreezesIntegral(deltaI: real, safeProb: real)
    requires 0.0 <= deltaI <= IntegralBound
    requires 0.2 < Abs(ChanceThreshold - safeProb)
    ensures NextIntegral(deltaI, safeProb) == deltaI
  {
  }

  /** An error inside the 0.1 band is integrated in full (up to the clamp). */
  lemma SmallErrorIntegrated(deltaI: real, safeProb: real)
    requires Abs(ChanceThreshold - safeProb) <= 0.1
    requires 0.0 <= deltaI + ChanceThreshold - safeProb <= IntegralBound
    ensures NextIntegral(deltaI, safeProb) == deltaI + ChanceThreshold - safeProb
  {
  }

  /** The accumulator of one constraint after a sequence of its own estimates. */
  function IntegralAfter(deltaI: real, probs: seq<real>): (r: real)
  {
    if |probs| == 0 then deltaI
    else NextIntegral(IntegralAfter(deltaI, probs[..|probs| - 1]), probs[|probs| - 1])
  }

  /**
    The controller driven by a sequence of safe-probability estimates.
    The constraints do not interact: each accumulator evolves from its
    own initial value and its own column of estimates alone.
  */
  function Run(st: ControllerState, probs: seq<seq<real>>): (r: ControllerState)
    requires |st.deltaI| == |st.safeProbPre|
    requires forall k :: 0 <= k < |probs| ==> |probs[k]| == |st.deltaI|
    ensures |r.deltaI| == |st.deltaI| && |r.safeProbPre| == |st.safeProbPre|
    ensures forall i :: 0 <= i < |st.deltaI| ==> r.deltaI[i] == IntegralAfter(st.deltaI[i], Column(probs, i))
    decreases |probs|
  {
    if |probs| == 0 then st
    else
      var prefix := probs[..|probs| - 1];
      assert forall k :: 0 <= k < |prefix| ==> prefix[k] == probs[k];
      assert forall i :: 0 <= i < |st.deltaI| ==> Column(probs, i)[..|prefix|] == Column(prefix, i);
      var prev := Run(st, prefix);
      GetWeight(prev, probs[|probs| - 1]).state
  }

  /**
    Over any number of calls the state stays valid; after at least one
    call the stored multiplier is zero and the previous probability is
    the last estimate.
  */
  lemma {:induction false} RunStaysValid(st: ControllerState, probs: seq<seq<real>>, m: nat)
    requires Valid(st, m)
    requires forall k :: 0 <= k < |probs| ==> |probs[k]| == m
    ensures Valid(Run(st, probs), m)
    ensures |probs| > 0 ==> Run(st, probs).safeProbPre == probs[|probs| - 1]
    ensures |probs| > 0 ==> forall i :: 0 <= i < m ==> Run(st, probs).lam[i] == 0.0
  {
    if |probs| > 0 {
      RunStaysValid(st, probs[..|probs| - 1], m);
    }
  }

  /**
    Sustained over-satisfaction: if every estimate of constraint `j` is at
    or above the threshold, its accumulator never increases and stays
    non-negative.
  */
  lemma {:induction false} SustainedOverSatisfaction(st: ControllerState, probs: seq<seq<real>>, m: nat, j: nat)
    requires Valid(st, m)
    requires j < m
    requires forall k :: 0 <= k < |probs| ==> |probs[k]| == m
    requires forall k :: 0 <= k < |probs| ==> ChanceThreshold <= probs[k][j]
    ensures 0.0 <= Run(st, probs).deltaI[j] <= st.deltaI[j]
  {
    RunStaysValid(st, probs, m);
    if |probs| > 0 {
      var prefix := probs[..|probs| - 1];
      SustainedOverSatisfaction(st, prefix, m, j);
      RunStaysValid(st, prefix, m);
      OverSatisfiedNoWindup(Run(st, prefix).deltaI[j], probs[|probs| - 1][j]);
    }
  }

  /**
    Regression target of the multiplier network for one constraint
    (`compute_loss_v`): the same separation with far factor 0.1, the
    integral taken from the target multiplier network's output, and the
    proportional term multiplied by zero.
  */
  function LamTarget(probTarget: real, lamnetTarget: real): (r: real)
    ensures 0.0 <= r <= LamBound
    ensures SeparatedIntegral(probTarget, lamnetTarget) <= 0.0 ==> r == 0.0
    ensures 0.0 <= SeparatedIntegral(probTarget, lamnetTarget) && Ki * SeparatedIntegral(probTarget, lamnetTarget) <= LamBound
        ==> r == Ki * SeparatedIntegral(probTarget, lamnetTarget)
    ensures LamBound <= Ki * SeparatedIntegral(probTarget, lamnetTarget) ==> r == LamBound
  {
    var dp := ChanceThreshold - probTarget;
    var dI := Clamp(SeparatedIntegral(probTarget, lamnetTarget), 0.0, IntegralBound);
    Clamp(Ki * dI + 0.0 * Kp * dp, 0.0, LamBound)
  }

  /**
    The integral the target is built from, before clamping: the target
    multiplier network's output plus the separated error (far factor 0.1).
  */
  function SeparatedIntegral(probTarget: real, lamnetTarget: real): (r: real)
  {
    lamnetTarget + Separate(ChanceThreshold - probTarget, NetworkFarFactor)
  }

  /** The target grows (weakly) with the target network's multiplier estimate. */
  lemma LamTargetMonotone(probTarget: real, l1: real, l2: real)
    requires l1 <= l2
    ensures LamTarget(probTarget, l1) <= LamTarget(probTarget, l2)
  {
    var s := Separate(ChanceThreshold - probTarget, NetworkFarFactor);
    assert SeparatedIntegral(probTarget, l1) == l1 + s && SeparatedIntegral(probTarget, l2) == l2 + s;
    ClampMonotone(l1 + s, l2 + s, 0.0, IntegralBound);
    var a := Clamp(l1 + s, 0.0, IntegralBound);
    var b := Clamp(l2 + s, 0.0, IntegralBound);
    assert Ki * a <= Ki * b;
    ClampMonotone(Ki * a, Ki * b, 0.0, LamBound);
  }

  /**
    Only the integral path matters: two probability estimates whose
    separated errors agree give the same target, whatever their
    proportional errors are.
  */
  lemma LamTargetIgnoresProportional(p1: real, p2: real, lamnetTarget: real)
    requires Separate(ChanceThreshold - p1, NetworkFarFactor) == Separate(ChanceThreshold - p2, NetworkFarFactor)
    ensures LamTarget(p1, lamnetTarget) == LamTarget(p2, lamnetTarget)
  {
  }

  /** The two controllers differ only on errors beyond 0.2. */
  lemma SeparationRulesAgreeBelowFarBand(dp: real)
    ensures Abs(dp) <= 0.2 <==> Separate(dp, ClosedFormFarFactor) == Separate(dp, NetworkFarFactor)
  {
  }

  /** The target for every constraint of one sample. */
  function LamTargets(probTarget: seq<real>, lamnetTarget: seq<real>): (r: seq<real>)
    requires |probTarget| == |lamnetTarget|
    ensures |r| == |probTarget|
    ensures forall i :: 0 <= i < |r| ==> r[i] == LamTarget(probTarget[i], lamnetTarget[i])
    ensures forall i :: 0 <= i < |r| ==> 0.0 <= r[i] <= LamBound
  {
    seq(|probTarget|, i requires 0 <= i < |probTarget| => LamTarget(probTarget[i], lamnetTarget[i]))
  }
}

=== FILE: spil_loss.dfy ===
/**
  One SPIL gradient computation (`compute_gradient`): the value,
  safety-probability and multiplier regression losses of
  `compute_loss_v`, the batch safe probability that drives the PI
  controller, and the multiplier-weighted policy loss of
  `compute_loss_policy`.

  The rollouts and the network calls act row by row, so a batch is a
  sequence of samples and each sample's rollout is computed on its own.
  The losses and the safe probability are reductions over the whole
  batch: batch means, computed by `Mean`, `SquaredError` and
  `SafeProbability`.
*/
module SpilLoss {
  import opened Wrappers
  import opened RealMath
  import opened SpilController
  import opened SpilRollout

  /** The part of a batch row the rollouts read: `obs` and `done`. */
  datatype Sample = Sample(obs: Obs, done: bool)

  /** The online and target networks other than the policy (which drives `Dynamics`). */
  datatype Networks = Networks(
    v: Obs -> real,
    prob: Obs -> seq<real>,
    lamnet: Obs -> seq<real>,
    vTarget: Obs -> real,
    probTarget: Obs -> seq<real>,
    lamnetTarget: Obs -> seq<real>)

  /** The probability and multiplier networks produce one value per constraint. */
  ghost predicate NetworkShapes(nets: Networks, m: nat)
  {
    && (forall o :: |nets.prob(o)| == m)
    && (forall o :: |nets.lamnet(o)| == m)
    && (forall o :: |nets.probTarget(o)| == m)
    && (forall o :: |nets.lamnetTarget(o)| == m)
  }

  /** The rollout of `forward_step` steps started from one sample. */
  function SampleRollout(dyn: Dynamics, cfg: Config, s: Sample): (t: seq<Transition>)
    ensures |t| == cfg.horizon
  {
    Rollout(dyn, s.obs, s.done, cfg.horizon)
  }

  /** The value target `r_sum` of one sample: discounted return plus the bootstrapped tail. */
  function ValueTarget(vTarget: Obs -> real, dyn: Dynamics, cfg: Config, s: Sample): (v: real)
    requires cfg.horizon > 0
  {
    BootstrappedReturn(vTarget, cfg, SampleRollout(dyn, cfg, s))
  }

  /** The observation `o` holds after the value loop: the one fed to the last step. */
  function LastObs(dyn: Dynamics, cfg: Config, s: Sample): (o: Obs)
    requires cfg.horizon > 0
  {
    ObsAt(s.obs, SampleRollout(dyn, cfg, s), cfg.horizon - 1)
  }

  /** The row of `traj_issafe` of one sample. */
  ghost function RolloutFlags(dyn: Dynamics, cfg: Config, s: Sample, m: nat): (r: seq<real>)
    requires ConstraintDim(dyn, m)
    ensures |r| == m
  {
    RolloutDims(dyn, s.obs, s.done, cfg.horizon, m);
    SafeFlags(SampleRollout(dyn, cfg, s), m)
  }

  /** `traj_issafe` of a batch. */
  ghost function BatchFlags(dyn: Dynamics, cfg: Config, batch: seq<Sample>, m: nat): (r: seq<seq<real>>)
    requires ConstraintDim(dyn, m)
    ensures |r| == |batch|
    ensures forall i :: 0 <= i < |batch| ==> |r[i]| == m
  {
    seq(|batch|, i requires 0 <= i < |batch| => RolloutFlags(dyn, cfg, batch[i], m))
  }

  /**
    `traj_issafe.mean(0)`: per constraint, the mean of the batch's flags.
    For 0/1 flags it is a probability: it lies in [0, 1], it is 1
    exactly when every row is flagged safe and 0 exactly when none is.
  */
  function SafeProbability(flags: seq<seq<real>>, m: nat): (p: seq<real>)
    requires |flags| > 0
    requires forall i :: 0 <= i < |flags| ==> |flags[i]| == m
    ensures |p| == m
    ensures ZeroOne(flags, m) ==> forall j :: 0 <= j < m ==> 0.0 <= p[j] <= 1.0
    ensures ZeroOne(flags, m) ==> forall j :: 0 <= j < m ==>
      (p[j] == 1.0 <==> forall i :: 0 <= i < |flags| ==> flags[i][j] == 1.0)
    ensures ZeroOne(flags, m) ==> forall j :: 0 <= j < m ==>
      (p[j] == 0.0 <==> forall i :: 0 <= i < |flags| ==> flags[i][j] == 0.0)
  {
    ColumnMeans(flags, m);
    seq(m, j requires 0 <= j < m => Mean(Column(flags, j)))
  }

  /** Every flag is 0 or 1. */
  predicate ZeroOne(flags: seq<seq<real>>, m: nat)
    requires forall i :: 0 <= i < |flags| ==> |flags[i]| == m
  {
    forall i, j :: 0 <= i < |flags| && 0 <= j < m ==> flags[i][j] == 0.0 || flags[i][j] == 1.0
  }

  /** The column means of 0/1 flags, constraint by constraint. */
  lemma ColumnMeans(flags: seq<seq<real>>, m: nat)
    requires |flags| > 0
    requires forall i :: 0 <= i < |flags| ==> |flags[i]| == m
    ensures ZeroOne(flags, m) ==> forall j :: 0 <= j < m ==> 0.0 <= Mean(Column(flags, j)) <= 1.0
    ensures ZeroOne(flags, m) ==> forall j :: 0 <= j < m ==>
      (Mean(Column(flags, j)) == 1.0 <==> forall i :: 0 <= i < |flags| ==> flags[i][j] == 1.0)
    ensures ZeroOne(flags, m) ==> forall j :: 0 <= j < m ==>
      (Mean(Column(flags, j)) == 0.0 <==> forall i :: 0 <= i < |flags| ==> flags[i][j] == 0.0)
  {
    forall j | 0 <= j < m && ZeroOne(flags, m)
      ensures 0.0 <= Mean(Column(flags, j)) <= 1.0
      ensures Mean(Column(flags, j)) == 1.0 <==> forall i :: 0 <= i < |flags| ==> flags[i][j] == 1.0
      ensures Mean(Column(flags, j)) == 0.0 <==> forall i :: 0 <= i < |flags| ==> flags[i][j] == 0.0
    {
      var col := Column(flags, j);
      MeanBounds(col, 0.0, 1.0);
      MeanAtUpper(col, 1.0);
      MeanAtLower(col, 0.0);
    }
  }

  /**
    The batch's safe probability for constraint `j` is 1 exactly when
    every sample's rollout kept constraint `j` at or below 0 at every
    step, and 0 exactly when every rollout violated it at some step.
  */
  lemma BatchSafeProbability(dyn: Dynamics, cfg: Config, batch: seq<Sample>, m: nat, j: nat)
    requires |batch| > 0
    requires ConstraintDim(dyn, m)
    requires j < m
    ensures 0.0 <= SafeProbability(BatchFlags(dyn, cfg, batch, m), m)[j] <= 1.0
    ensures SafeProbability(BatchFlags(dyn, cfg, batch, m), m)[j] == 1.0
        <==> forall i :: 0 <= i < |batch| ==> StayedSafe(SampleRollout(dyn, cfg, batch[i]), j)
    ensures SafeProbability(BatchFlags(dyn, cfg, batch, m), m)[j] == 0.0
        <==> forall i :: 0 <= i < |batch| ==> !StayedSafe(SampleRollout(dyn, cfg, batch[i]), j)
  {
    var flags := BatchFlags(dyn, cfg, batch, m);
    var col := Column(flags, j);
    forall i | 0 <= i < |batch|
      ensures col[i] == 1.0 <==> StayedSafe(SampleRollout(dyn, cfg, batch[i]), j)
      ensures col[i] == 0.0 <==> !StayedSafe(SampleRollout(dyn, cfg, batch[i]), j)
    {
      FlagOfSample(dyn, cfg, batch[i], m, j);
    }
    MeanBounds(col, 0.0, 1.0);
    MeanAtUpper(col, 1.0);
    MeanAtLower(col, 0.0);
  }

  /** Entry `j` of a sample's flag row is 1 when its rollout stayed safe and 0 otherwise. */
  lemma FlagOfSample(dyn: Dynamics, cfg: Config, s: Sample, m: nat, j: nat)
    requires ConstraintDim(dyn, m)
    requires j < m
    ensures RolloutFlags(dyn, cfg, s, m)[j] == 1.0 <==> StayedSafe(SampleRollout(dyn, cfg, s), j)
    ensures RolloutFlags(dyn, cfg, s, m)[j] == 0.0 <==> !StayedSafe(SampleRollout(dyn, cfg, s), j)
  {
    var t := SampleRollout(dyn, cfg, s);
    RolloutDims(dyn, s.obs, s.done, cfg.horizon, m);
    assert RolloutFlags(dyn, cfg, s, m)[j] == SafeFlag(t, j);
    SafeFlagMeansStayedSafe(t, j);
  }

  /** `w_r` and `w_c` of the policy loss. */
  datatype LossWeights = LossWeights(reward: real, constraint: seq<real>)

  /**
    `w_r = 1 / (1 + sum(lam))`, `w_c = lam / (1 + sum(lam))`: the reward
    weight and the constraint weights always add up to one.
  */
  function Weights(lam: seq<real>): (w: LossWeights)
    requires 1.0 + Sum(lam) != 0.0
    ensures |w.constraint| == |lam|
    ensures w.reward * (1.0 + Sum(lam)) == 1.0
    ensures w.reward + Sum(w.constraint) == 1.0
  {
    var total := 1.0 + Sum(lam);
    var wc := seq(|lam|, i requires 0 <= i < |lam| => lam[i] / total);
    SumDivide(lam, wc, total);
    WeightsAddUp(Sum(lam), total);
    LossWeights(1.0 / total, wc)
  }

  lemma WeightsAddUp(s: real, total: real)
    requires total == 1.0 + s
    requires total != 0.0
    ensures 1.0 / total + s / total == 1.0
    ensures (1.0 / total) * total == 1.0
  {
    assert 1.0 / total + s / total == (1.0 + s) / total;
  }

  /**
    With non-negative multipliers the reward weight lies in (0, 1] and
    the constraint weights are non-negative and sum to less than one.
  */
  lemma WeightsBounded(lam: seq<real>)
    requires forall i :: 0 <= i < |lam| ==> 0.0 <= lam[i]
    ensures 1.0 + Sum(lam) != 0.0
    ensures 0.0 < Weights(lam).reward <= 1.0
    ensures forall i :: 0 <= i < |lam| ==> 0.0 <= Weights(lam).constraint[i]
    ensures Sum(Weights(lam).constraint) < 1.0
  {
    SumNonNegativeZero(lam);
    var total := 1.0 + Sum(lam);
    var w := Weights(lam);
    assert w.reward == 1.0 / total;
    ReciprocalAtMostOne(total);
    forall i | 0 <= i < |lam|
      ensures 0.0 <= w.constraint[i]
    {
      assert w.constraint[i] == lam[i] / total;
      DivideMonotone(0.0, lam[i], total);
    }
  }

  /**
    One sample's objective `r_sum * w_r + (c_mul * w_c).sum(1)` with the
    multiplier reshaped to a single value: every constraint product is
    weighted by that one constraint weight, so the objective is the
    return plus lam times the summed products, over 1 + lam.
  */
  function Objective(rSum: real, cMul: seq<real>, lam: real): (r: real)
    requires lam != -1.0
    ensures r == (rSum + lam * Sum(cMul)) / (1.0 + lam)
  {
    var w := Weights([lam]);
    var weighted := seq(|cMul|, d requires 0 <= d < |cMul| => cMul[d] * w.constraint[0]);
    assert Sum([lam]) == lam by {
      assert [lam][..0] == [];
    }
    SumScale(cMul, weighted, w.constraint[0]);
    WeightedClosedForm(rSum, Sum(cMul), lam);
    rSum * w.reward + Sum(weighted)
  }

  lemma WeightedClosedForm(rSum: real, s: real, lam: real)
    requires lam != -1.0
    ensures rSum * (1.0 / (1.0 + lam)) + s * (lam / (1.0 + lam)) == (rSum + lam * s) / (1.0 + lam)
  {
    var t := 1.0 + lam;
    assert rSum * (1.0 / t) == rSum / t;
    assert s * (lam / t) == (lam * s) / t;
  }

  /**
    `compute_loss_policy`'s result: the negated batch mean of the
    objective, (r_sum + lam * sum(c_mul)) / (1 + lam) per sample.
  */
  function PolicyLoss(rSums: seq<real>, cMuls: seq<seq<real>>, lam: real): (r: real)
    requires |rSums| == |cMuls| > 0
    requires lam != -1.0
    ensures r == -Mean(seq(|rSums|, i requires 0 <= i < |rSums| => (rSums[i] + lam * Sum(cMuls[i])) / (1.0 + lam)))
  {
    var objectives := seq(|rSums|, i requires 0 <= i < |rSums| => Objective(rSums[i], cMuls[i], lam));
    assert objectives == seq(|rSums|, i requires 0 <= i < |rSums| => (rSums[i] + lam * Sum(cMuls[i])) / (1.0 + lam));
    -Mean(objectives)
  }

  /**
    With a zero multiplier (the value the controller always stores) the
    constraint products drop out and the policy loss is the negated mean
    return.
  */
  lemma PolicyLossWithoutMultiplier(rSums: seq<real>, cMuls: seq<seq<real>>)
    requires |rSums| == |cMuls| > 0
    ensures PolicyLoss(rSums, cMuls, 0.0) == -Mean(rSums)
  {
    var w := Weights([0.0]);
    assert Sum([0.0]) == 0.0 by {
      assert [0.0][..0] == [];
    }
    assert w.reward == 1.0;
    assert w.constraint[0] == 0.0;
    var objectives := seq(|rSums|, i requires 0 <= i < |rSums| => Objective(rSums[i], cMuls[i], 0.0));
    forall i | 0 <= i < |rSums|
      ensures objectives[i] == rSums[i]
    {
      var cMul := cMuls[i];
      var weighted := seq(|cMul|, d requires 0 <= d < |cMul| => cMul[d] * w.constraint[0]);
      SumZeros(weighted);
    }
    assert objectives == rSums;
  }

  /**
    The loss is a descent direction for the return: with a non-negative
    multiplier, raising every sample's return (constraint products
    fixed) never raises the loss.
  */
  lemma PolicyLossAntitone(r1: seq<real>, r2: seq<real>, cMuls: seq<seq<real>>, lam: real)
    requires |r1| == |r2| == |cMuls| > 0
    requires 0.0 <= lam
    requires forall i :: 0 <= i < |r1| ==> r1[i] <= r2[i]
    ensures PolicyLoss(r2, cMuls, lam) <= PolicyLoss(r1, cMuls, lam)
  {
    WeightsBounded([lam]);
    var w := Weights([lam]);
    var o1 := seq(|r1|, i requires 0 <= i < |r1| => Objective(r1[i], cMuls[i], lam));
    var o2 := seq(|r2|, i requires 0 <= i < |r2| => Objective(r2[i], cMuls[i], lam));
    forall i | 0 <= i < |r1|
      ensures o1[i] <= o2[i]
    {
      MulNonNegative(r2[i] - r1[i], w.reward);
      assert r1[i] * w.reward <= r2[i] * w.reward;
    }
    MeanMonotone(o1, o2);
  }

  /** The reshape of the stored multiplier to shape (1, 1) fails. */
  datatype GradientError = ReshapeError

  /** The four losses whose gradients `compute_gradient` collects. */
  datatype Losses = Losses(valueLoss: real, probLoss: real, lamnetLoss: real, policyLoss: real)

  /**
    What one `compute_gradient` leaves behind: the controller state and
    the safe probability are updated even when the reshape then fails.
  */
  datatype GradientOutcome = GradientOutcome(state: ControllerState, safeProb: seq<real>, losses: Result<Losses, GradientError>)

  /** The batch's value-network outputs. */
  function Values(nets: Networks, batch: seq<Sample>): (r: seq<real>)
    ensures |r| == |batch|
  {
    seq(|batch|, i requires 0 <= i < |batch| => nets.v(batch[i].obs))
  }

  /** The batch's value targets `r_sum`. */
  function ValueTargets(nets: Networks, dyn: Dynamics, cfg: Config, batch: seq<Sample>): (r: seq<real>)
    requires cfg.horizon > 0
    ensures |r| == |batch|
  {
    seq(|batch|, i requires 0 <= i < |batch| => ValueTarget(nets.vTarget, dyn, cfg, batch[i]))
  }

  /** The observation each sample's value loop ends on. */
  function LastObservations(dyn: Dynamics, cfg: Config, batch: seq<Sample>): (r: seq<Obs>)
    requires cfg.horizon > 0
    ensures |r| == |batch|
  {
    seq(|batch|, i requires 0 <= i < |batch| => LastObs(dyn, cfg, batch[i]))
  }

  /** The batch's returns without tail, as the policy loop accumulates them. */
  function Returns(dyn: Dynamics, cfg: Config, batch: seq<Sample>): (r: seq<real>)
    ensures |r| == |batch|
  {
    seq(|batch|, i requires 0 <= i < |batch| => RolloutReturn(cfg, SampleRollout(dyn, cfg, batch[i])))
  }

  /**
    The rollout loop of `compute_loss_v` over a batch: per sample the
    value target, the safety flags and the last observation fed to the
    model.
  */
  method ValuePhase(dyn: Dynamics, vTarget: Obs -> real, cfg: Config, batch: seq<Sample>, m: nat)
    returns (rSums: seq<real>, flags: seq<seq<real>>, lasts: seq<Obs>)
    requires cfg.horizon > 0
    requires ConstraintDim(dyn, m)
    ensures |rSums| == |batch| && |lasts| == |batch|
    ensures forall i :: 0 <= i < |batch| ==> rSums[i] == ValueTarget(vTarget, dyn, cfg, batch[i])
    ensures forall i :: 0 <= i < |batch| ==> lasts[i] == LastObs(dyn, cfg, batch[i])
    ensures flags == BatchFlags(dyn, cfg, batch, m)
  {
    rSums, flags, lasts := [], [], [];
    var i := 0;
    while i < |batch|
      invariant 0 <= i <= |batch|
      invariant |rSums| == i && |flags| == i && |lasts| == i
      invariant forall k :: 0 <= k < i ==> rSums[k] == ValueTarget(vTarget, dyn, cfg, batch[k])
      invariant forall k :: 0 <= k < i ==> lasts[k] == LastObs(dyn, cfg, batch[k])
      invariant forall k :: 0 <= k < i ==> flags[k] == RolloutFlags(dyn, cfg, batch[k], m)
    {
      var r, f, o := ValueSample(dyn, vTarget, cfg, batch[i], m);
      rSums, flags, lasts := rSums + [r], flags + [f], lasts + [o];
      i := i + 1;
    }
  }

  /** The value rollout of one sample. */
  method ValueSample(dyn: Dynamics, vTarget: Obs -> real, cfg: Config, s: Sample, m: nat)
    returns (r: real, f: seq<real>, o: Obs)
    requires cfg.horizon > 0
    requires ConstraintDim(dyn, m)
    ensures r == ValueTarget(vTarget, dyn, cfg, s)
    ensures f == RolloutFlags(dyn, cfg, s, m)
    ensures o == LastObs(dyn, cfg, s)
  {
    r, f, o := ValueRollout(dyn, vTarget, cfg, s.obs, s.done, m);
  }

  /**
    The rollout loop of `compute_loss_policy` over a batch: per sample
    the return and the products of `Phi` (the sums `c_sum` are computed
    by the source but never used, so they are not returned).
  */
  method PolicyPhase(dyn: Dynamics, exp: real -> real, cfg: Config, batch: seq<Sample>, m: nat)
    returns (rSums: seq<real>, cMuls: seq<seq<real>>)
    requires ExpPositive(exp)
    requires cfg.horizon > 0
    requires ConstraintDim(dyn, m)
    ensures |rSums| == |batch| && |cMuls| == |batch|
    ensures rSums == Returns(dyn, cfg, batch)
    ensures forall i :: 0 <= i < |batch| ==> |cMuls[i]| == m
    ensures forall i, j :: 0 <= i < |batch| && 0 <= j < m ==> 0.0 < cMuls[i][j] <= Pow(PhiCeiling, cfg.horizon)
    ensures forall i, j :: 0 <= i < |batch| && 0 <= j < m ==>
      HasDim(SampleRollout(dyn, cfg, batch[i]), j) && cMuls[i][j] == PhiProduct(exp, SampleRollout(dyn, cfg, batch[i]), j)
  {
    rSums, cMuls := [], [];
    var i := 0;
    while i < |batch|
      invariant 0 <= i <= |batch|
      invariant |rSums| == i && |cMuls| == i
      invariant forall k :: 0 <= k < i ==> rSums[k] == RolloutReturn(cfg, SampleRollout(dyn, cfg, batch[k]))
      invariant forall k :: 0 <= k < i ==> |cMuls[k]| == m
      invariant forall k, j :: 0 <= k < i && 0 <= j < m ==> 0.0 < cMuls[k][j] <= Pow(PhiCeiling, cfg.horizon)
      invariant forall k, j :: 0 <= k < i && 0 <= j < m ==>
        HasDim(SampleRollout(dyn, cfg, batch[k]), j) && cMuls[k][j] == PhiProduct(exp, SampleRollout(dyn, cfg, batch[k]), j)
    {
      var r, cMul := PolicySample(dyn, exp, cfg, batch[i], m);
      rSums, cMuls := rSums + [r], cMuls + [cMul];
      i := i + 1;
    }
  }

  /** The policy rollout of one sample: its return and its products of `Phi`. */
  method PolicySample(dyn: Dynamics, exp: real -> real, cfg: Config, s: Sample, m: nat)
    returns (r: real, cMul: seq<real>)
    requires ExpPositive(exp)
    requires cfg.horizon > 0
    requires ConstraintDim(dyn, m)
    ensures r == RolloutReturn(cfg, SampleRollout(dyn, cfg, s))
    ensures |cMul| == m
    ensures forall j :: 0 <= j < m ==> 0.0 < cMul[j] <= Pow(PhiCeiling, cfg.horizon)
    ensures forall j :: 0 <= j < m ==>
      HasDim(SampleRollout(dyn, cfg, s), j) && cMul[j] == PhiProduct(exp, SampleRollout(dyn, cfg, s), j)
  {
    var cSum;
    r, cSum, cMul := PolicyRollout(dyn, exp, cfg, s.obs, s.done, m);
  }

  lemma ProductPositive(n: nat, m: nat)
    requires 0 < n && 0 < m
    ensures 0 < n * m
  {
  }

  /**
    `compute_gradient`: the value phase first (it sets the safe
    probability), then the policy phase, whose `spil_get_weight` call
    advances the controller before the stored multiplier is reshaped to
    (1, 1); the reshape fails unless there is exactly one constraint.
    With no constraint the regression losses are means over empty
    tensors, which nothing reads before the reshape raises, so that case
    is the controller step followed by the failure.
    Since the stored multiplier is zero, the policy loss is the negated
    mean return.
  */
  method ComputeGradient(nets: Networks, dyn: Dynamics, exp: real -> real, cfg: Config,
                         st: ControllerState, batch: seq<Sample>, m: nat)
    returns (out: GradientOutcome)
    requires |batch| > 0 && cfg.horizon > 0
    requires ConstraintDim(dyn, m)
    requires NetworkShapes(nets, m)
    requires ExpPositive(exp)
    requires |st.deltaI| == m && |st.safeProbPre| == m
    ensures out.safeProb == SafeProbability(BatchFlags(dyn, cfg, batch, m), m)
    ensures out.state == GetWeight(st, out.safeProb).state
    ensures out.losses.Success? <==> m == 1
    ensures out.losses.Success? ==>
      out.losses.value.valueLoss == SquaredError(Values(nets, batch), ValueTargets(nets, dyn, cfg, batch))
    ensures out.losses.Success? ==> out.losses.value.policyLoss == -Mean(Returns(dyn, cfg, batch))
    ensures out.losses.Success? ==>
      out.losses.value.probLoss == ProbLoss(nets, batch, BatchFlags(dyn, cfg, batch, m), m)
    ensures out.losses.Success? ==>
      out.losses.value.lamnetLoss == LamnetLoss(nets, batch, LastObservations(dyn, cfg, batch), m)
  {
    if m == 0 {
      var none: seq<real> := [];
      assert none == SafeProbability(BatchFlags(dyn, cfg, batch, m), m);
      return GradientOutcome(GetWeight(st, none).state, none, Failure(ReshapeError));
    }
    var lossV, lossProb, lossLamnet, flags := ValueLosses(nets, dyn, cfg, batch, m);
    var safeProb := SafeProbability(flags, m);
    // compute_loss_policy
    var rPolicy, cMuls := PolicyPhase(dyn, exp, cfg, batch, m);
    var w := GetWeight(st, safeProb);
    if m != 1 {
      return GradientOutcome(w.state, safeProb, Failure(ReshapeError));
    }
    var lossPolicy := PolicyLoss(rPolicy, cMuls, w.state.lam[0]);
    PolicyLossWithoutMultiplier(rPolicy, cMuls);
    out := GradientOutcome(w.state, safeProb, Success(Losses(lossV, lossProb, lossLamnet, lossPolicy)));
  }

  /**
    `compute_loss_v`: the value loss against the bootstrapped targets,
    the probability loss against the rollouts' safety flags, and the
    multiplier loss against `LamTargets` of the target networks at the
    last observation; it returns the flags that set `safe_prob`.
  */
  method ValueLosses(nets: Networks, dyn: Dynamics, cfg: Config, batch: seq<Sample>, m: nat)
    returns (lossV: real, lossProb: real, lossLamnet: real, flags: seq<seq<real>>)
    requires |batch| > 0 && m > 0 && cfg.horizon > 0
    requires ConstraintDim(dyn, m)
    requires NetworkShapes(nets, m)
    ensures lossV == SquaredError(Values(nets, batch), ValueTargets(nets, dyn, cfg, batch))
    ensures lossProb == ProbLoss(nets, batch, BatchFlags(dyn, cfg, batch, m), m)
    ensures lossLamnet == LamnetLoss(nets, batch, LastObservations(dyn, cfg, batch), m)
    ensures flags == BatchFlags(dyn, cfg, batch, m)
  {
    var rSums, lasts;
    rSums, flags, lasts := ValuePhase(dyn, nets.vTarget, cfg, batch, m);
    assert rSums == ValueTargets(nets, dyn, cfg, batch);
    assert lasts == LastObservations(dyn, cfg, batch);
    lossV := SquaredError(Values(nets, batch), rSums);
    lossProb := ProbLoss(nets, batch, flags, m);
    lossLamnet := LamnetLoss(nets, batch, lasts, m);
  }

  /** The probability network's squared error against the rollouts' safety flags. */
  function ProbLoss(nets: Networks, batch: seq<Sample>, flags: seq<seq<real>>, m: nat): (r: real)
    requires |batch| > 0 && m > 0
    requires NetworkShapes(nets, m)
    requires |flags| == |batch|
    requires forall i :: 0 <= i < |flags| ==> |flags[i]| == m
    ensures 0.0 <= r
    ensures r == 0.0 <==> forall i, j :: 0 <= i < |batch| && 0 <= j < m ==> nets.prob(batch[i].obs)[j] == flags[i][j]
  {
    var n := |batch|;
    var probs := seq(n, i requires 0 <= i < n => nets.prob(batch[i].obs));
    ProductPositive(n, m);
    assert forall i :: 0 <= i < n ==> |probs[i]| == |nets.prob(batch[i].obs)| == m;
    FlattenLength(probs, m);
    FlattenLength(flags, m);
    FlattenEqual(probs, flags, m);
    SquaredError(Flatten(probs), Flatten(flags))
  }

  /**
    The multiplier network's squared error against `LamTargets` of the
    target networks evaluated at each sample's last observation.
  */
  function LamnetLoss(nets: Networks, batch: seq<Sample>, lasts: seq<Obs>, m: nat): (r: real)
    requires |batch| > 0 && m > 0
    requires NetworkShapes(nets, m)
    requires |lasts| == |batch|
    ensures 0.0 <= r
    ensures r == 0.0 <==> forall i, j :: 0 <= i < |batch| && 0 <= j < m ==>
      nets.lamnet(batch[i].obs)[j] == LamTarget(nets.probTarget(lasts[i])[j], nets.lamnetTarget(lasts[i])[j])
  {
    var n := |batch|;
    var lamnets := seq(n, i requires 0 <= i < n => nets.lamnet(batch[i].obs));
    var targets := seq(n, i requires 0 <= i < n => LamTargets(nets.probTarget(lasts[i]), nets.lamnetTarget(lasts[i])));
    ProductPositive(n, m);
    assert forall i :: 0 <= i < n ==> |lamnets[i]| == |nets.lamnet(batch[i].obs)| == m;
    FlattenLength(lamnets, m);
    FlattenLength(targets, m);
    FlattenEqual(lamnets, targets, m);
    assert forall i, j :: 0 <= i < n && 0 <= j < m ==>
      lamnets[i][j] == nets.lamnet(batch[i].obs)[j]
      && targets[i][j] == LamTarget(nets.probTarget(lasts[i])[j], nets.lamnetTarget(lasts[i])[j]);
    SquaredError(Flatten(lamnets), Flatten(targets))
  }
}

=== FILE: spil_rollout.dfy ===
/**
  The model-based rollout estimator of the SPIL learner: the closed
  simulated loop policy -> environment model -> next observation run for
  exactly `forward_step` steps, the discounted reward sum with its
  bootstrapped tail, the AND-accumulated safety flags, and the products
  and sums of the constraint transfer function `Phi`.

  The environment model, the policy and every network are uninterpreted
  functions; the exponential is a parameter assumed positive and
  strictly increasing.
*/
module SpilRollout {
  import opened RealMath

  type Obs = seq<real>
  type Act = seq<real>

  /** One output of the environment model's forward: (o2, r, d, info['constraint']). */
  datatype Transition = Transition(next: Obs, reward: real, done: bool, constraint: seq<real>)

  /** The environment model and the online policy driving it. */
  datatype Dynamics = Dynamics(model: (Obs, Act, bool) -> Transition, policy: Obs -> Act)

  /** Discount, reward scale and horizon (`forward_step`) of the estimator. */
  datatype Config = Config(gamma: real, rewardScale: real, horizon: nat)

  /** Every output of the environment model carries `m` constraint values. */
  ghost predicate ConstraintDim(dyn: Dynamics, m: nat)
  {
    forall o, a, d :: |dyn.model(o, a, d).constraint| == m
  }

  /** One simulated step from observation `o` with done flag `d`. */
  function Step(dyn: Dynamics, o: Obs, d: bool): (x: Transition)
  {
    dyn.model(o, dyn.policy(o), d)
  }

  /** The observation fed to step `k`: the initial one, then the model's prediction. */
  function ObsAt(o0: Obs, t: seq<Transition>, k: nat): (o: Obs)
    requires k <= |t|
  {
    if k == 0 then o0 else t[k - 1].next
  }

  /** The done flag fed to step `k`. */
  function DoneAt(d0: bool, t: seq<Transition>, k: nat): (d: bool)
    requires k <= |t|
  {
    if k == 0 then d0 else t[k - 1].done
  }

  /**
    The rollout of `n` steps: exactly `n` transitions whatever done flags
    the model returns.
  */
  function Rollout(dyn: Dynamics, o0: Obs, d0: bool, n: nat): (t: seq<Transition>)
    ensures |t| == n
  {
    if n == 0 then []
    else
      var p := Rollout(dyn, o0, d0, n - 1);
      p + [Step(dyn, ObsAt(o0, p, n - 1), DoneAt(d0, p, n - 1))]
  }

  /**
    Step `k` of a rollout is the model applied to the policy's action on
    the observation and done flag produced by step `k - 1` (the initial
    ones for step 0): the loop is closed on the model's own predictions.
  */
  lemma {:induction false} RolloutStep(dyn: Dynamics, o0: Obs, d0: bool, n: nat, k: nat)
    requires k < n
    ensures Rollout(dyn, o0, d0, n)[k]
         == Step(dyn, ObsAt(o0, Rollout(dyn, o0, d0, n), k), DoneAt(d0, Rollout(dyn, o0, d0, n), k))
  {
    var t := Rollout(dyn, o0, d0, n);
    var p := Rollout(dyn, o0, d0, n - 1);
    assert t == p + [Step(dyn, ObsAt(o0, p, n - 1), DoneAt(d0, p, n - 1))];
    if k < n - 1 {
      RolloutStep(dyn, o0, d0, n - 1, k);
      assert t[k] == p[k];
    }
    if k > 0 {
      assert t[k - 1] == p[k - 1];
    }
  }

  /** A shorter rollout is a prefix of a longer one. */
  lemma {:induction false} RolloutPrefix(dyn: Dynamics, o0: Obs, d0: bool, k: nat, n: nat)
    requires k <= n
    ensures Rollout(dyn, o0, d0, n)[..k] == Rollout(dyn, o0, d0, k)
    decreases n
  {
    if k < n {
      RolloutPrefix(dyn, o0, d0, k, n - 1);
      var t := Rollout(dyn, o0, d0, n);
      assert t[..n - 1] == Rollout(dyn, o0, d0, n - 1);
      assert t[..k] == t[..n - 1][..k];
    }
  }

  /** Every transition of a rollout carries the model's `m` constraint values. */
  lemma RolloutDim(dyn: Dynamics, o0: Obs, d0: bool, n: nat, m: nat)
    requires ConstraintDim(dyn, m)
    ensures forall k :: 0 <= k < n ==> |Rollout(dyn, o0, d0, n)[k].constraint| == m
  {
    forall k | 0 <= k < n
      ensures |Rollout(dyn, o0, d0, n)[k].constraint| == m
    {
      RolloutStep(dyn, o0, d0, n, k);
    }
  }

  /** The contribution reward_scale * gamma^k * r of the reward seen at step `k`. */
  function Discounted(cfg: Config, k: nat, r: real): (x: real)
  {
    cfg.rewardScale * Pow(cfg.gamma, k) * r
  }

  /** The terms accumulated by the rollout loops, one per step. */
  function ReturnTerms(cfg: Config, t: seq<Transition>): (terms: seq<real>)
    ensures |terms| == |t|
  {
    seq(|t|, k requires 0 <= k < |t| => Discounted(cfg, k, t[k].reward))
  }

  /** Scaled, discounted reward of a rollout, without any tail. */
  function RolloutReturn(cfg: Config, t: seq<Transition>): (r: real)
  {
    Sum(ReturnTerms(cfg, t))
  }

  /**
    The value target of a rollout: its scaled discounted return plus the
    bootstrapped tail gamma^H * V_target of the last predicted observation.
  */
  function BootstrappedReturn(vTarget: Obs -> real, cfg: Config, t: seq<Transition>): (r: real)
    requires |t| > 0
  {
    RolloutReturn(cfg, t) + Pow(cfg.gamma, |t|) * vTarget(t[|t| - 1].next)
  }

  /**
    Extending a rollout by one transition adds exactly its discounted,
    scaled reward: the return is accumulated step by step.
  */
  lemma RolloutReturnSnoc(cfg: Config, t: seq<Transition>, x: Transition)
    ensures RolloutReturn(cfg, t + [x]) == RolloutReturn(cfg, t) + Discounted(cfg, |t|, x.reward)
  {
    var s := ReturnTerms(cfg, t + [x]);
    assert s[..|t|] == ReturnTerms(cfg, t);
    assert s[|t|] == Discounted(cfg, |t|, x.reward);
  }

  /** `where(c > 0, 0, 1)`: one step's safety indicator. */
  function Indicator(c: real): (r: real)
  {
    if c > 0.0 then 0.0 else 1.0
  }

  /** Every transition carries at least `j + 1` constraint values. */
  predicate HasDim(t: seq<Transition>, j: nat)
  {
    forall k :: 0 <= k < |t| ==> j < |t[k].constraint|
  }

  /**
    `traj_issafe[j]`: ones multiplied by each step's indicator. It is 0 or
    1, and 1 exactly when the constraint was <= 0 at every step.
  */
  function SafeFlag(t: seq<Transition>, j: nat): (r: real)
    requires HasDim(t, j)
    ensures r == 0.0 || r == 1.0
    ensures r == 1.0 <==> forall k :: 0 <= k < |t| ==> t[k].constraint[j] <= 0.0
  {
    if |t| == 0 then 1.0
    else
      var prev := SafeFlag(t[..|t| - 1], j);
      assert forall k :: 0 <= k < |t| - 1 ==> t[..|t| - 1][k] == t[k];
      prev * Indicator(t[|t| - 1].constraint[j])
  }

  /** Constraint `j` was reported and stayed at or below zero at every step. */
  predicate StayedSafe(t: seq<Transition>, j: nat)
  {
    forall k :: 0 <= k < |t| ==> j < |t[k].constraint| && t[k].constraint[j] <= 0.0
  }

  /** The AND-accumulated flag is 1 exactly when the rollout stayed safe. */
  lemma SafeFlagMeansStayedSafe(t: seq<Transition>, j: nat)
    requires HasDim(t, j)
    ensures SafeFlag(t, j) == 1.0 <==> StayedSafe(t, j)
    ensures SafeFlag(t, j) == 0.0 <==> !StayedSafe(t, j)
  {
  }

  /** Once a rollout has been unsafe in dimension `j`, it stays unsafe. */
  lemma SafeFlagSticky(t: seq<Transition>, j: nat, k: nat)
    requires HasDim(t, j)
    requires k <= |t|
    ensures SafeFlag(t, j) <= SafeFlag(t[..k], j)
    ensures SafeFlag(t[..k], j) == 0.0 ==> SafeFlag(t, j) == 0.0
  {
    assert HasDim(t[..k], j);
    if SafeFlag(t[..k], j) == 0.0 {
      var w :| 0 <= w < k && t[..k][w].constraint[j] > 0.0;
      assert t[w].constraint[j] > 0.0;
    }
  }

  const PhiM1: real := 1.0
  const PhiM2: real := PhiM1 / (1.0 + PhiM1) * 0.9
  const PhiTau: real := 0.07
  /** The supremum 1 + tau * m1 of `Phi`. */
  const PhiCeiling: real := 1.0 + PhiTau * PhiM1
  /** The exponent argument y / tau is clamped to [-10, 5]. */
  const ExpArgMin: real := -10.0
  const ExpArgMax: real := 5.0

  /**
    The constraint transfer function: a smooth surrogate of "the
    constraint is satisfied", strictly between 0 and 1 + tau * m1.
  */
  function Phi(exp: real -> real, y: real): (r: real)
    requires ExpPositive(exp)
    ensures 0.0 < r < PhiCeiling
  {
    var e := exp(Clamp(y / PhiTau, ExpArgMin, ExpArgMax));
    DivideByMoreThanOne(PhiCeiling, 1.0 + PhiM2 * PhiTau * e);
    PhiCeiling / (1.0 + PhiM2 * PhiTau * e)
  }

  lemma DivideByMoreThanOne(a: real, b: real)
    requires 0.0 < a
    requires 1.0 < b
    ensures 0.0 < a / b < a
  {
    assert a / b * b == a;
  }

  lemma DivideAntitone(a: real, b1: real, b2: real)
    requires 0.0 < a
    requires 0.0 < b1 <= b2
    ensures a / b2 <= a / b1
    ensures b1 < b2 ==> a / b2 < a / b1
  {
    var q1 := a / b1;
    var q2 := a / b2;
    assert q1 * b1 == a;
    assert q2 * b2 == a;
    assert 0.0 < q2;
    assert q2 * b1 <= q2 * b2;
  }

  /** `Phi` never increases with the constraint value. */
  lemma PhiNonIncreasing(exp: real -> real, y1: real, y2: real)
    requires ExpLike(exp)
    requires y1 <= y2
    ensures Phi(exp, y2) <= Phi(exp, y1)
  {
    var x1 := Clamp(y1 / PhiTau, ExpArgMin, ExpArgMax);
    var x2 := Clamp(y2 / PhiTau, ExpArgMin, ExpArgMax);
    ClampMonotone(y1 / PhiTau, y2 / PhiTau, ExpArgMin, ExpArgMax);
    assert exp(x1) <= exp(x2);
    DivideAntitone(PhiCeiling, 1.0 + PhiM2 * PhiTau * exp(x1), 1.0 + PhiM2 * PhiTau * exp(x2));
  }

  /** Inside the clamp band [-0.7, 0.35] `Phi` is strictly decreasing. */
  lemma PhiStrictInBand(exp: real -> real, y1: real, y2: real)
    requires ExpLike(exp)
    requires -0.7 <= y1 < y2 <= 0.35
    ensures Phi(exp, y2) < Phi(exp, y1)
  {
    var x1 := Clamp(y1 / PhiTau, ExpArgMin, ExpArgMax);
    var x2 := Clamp(y2 / PhiTau, ExpArgMin, ExpArgMax);
    assert x1 == y1 / PhiTau && x2 == y2 / PhiTau;
    assert exp(x1) < exp(x2);
    DivideAntitone(PhiCeiling, 1.0 + PhiM2 * PhiTau * exp(x1), 1.0 + PhiM2 * PhiTau * exp(x2));
  }

  /** Outside the band `Phi` is constant: the exponent is clamped. */
  lemma PhiSaturates(exp: real -> real, y: real)
    requires ExpPositive(exp)
    ensures 0.35 <= y ==> Phi(exp, y) == Phi(exp, 0.35)
    ensures y <= -0.7 ==> Phi(exp, y) == Phi(exp, -0.7)
  {
  }

  /** `c_mul[j]`: the product of `Phi` over the rollout; strictly positive. */
  function PhiProduct(exp: real -> real, t: seq<Transition>, j: nat): (r: real)
    requires ExpPositive(exp)
    requires HasDim(t, j)
    ensures 0.0 < r
  {
    if |t| == 0 then 1.0
    else
      var prev := PhiProduct(exp, t[..|t| - 1], j);
      var c := Phi(exp, t[|t| - 1].constraint[j]);
      UnitProduct(prev, c);
      prev * c
  }

  /** The product of `Phi` over `n` steps is at most (1 + tau * m1)^n. */
  lemma {:induction false} PhiProductBound(exp: real -> real, t: seq<Transition>, j: nat)
    requires ExpPositive(exp)
    requires HasDim(t, j)
    ensures PhiProduct(exp, t, j) <= Pow(PhiCeiling, |t|)
  {
    if |t| > 0 {
      var p := t[..|t| - 1];
      assert HasDim(p, j);
      PhiProductBound(exp, p, j);
      PositiveProductBound(PhiProduct(exp, p, j), Phi(exp, t[|t| - 1].constraint[j]), Pow(PhiCeiling, |t| - 1), PhiCeiling);
    }
  }

  lemma PositiveProductBound(a: real, b: real, ca: real, cb: real)
    requires 0.0 < a <= ca
    requires 0.0 < b <= cb
    ensures 0.0 < a * b
    ensures a * b <= cb * ca
  {
    assert a * b <= ca * b;
    assert ca * b <= ca * cb;
  }

  /** `c_sum[j]`: the sum of `Phi` over the rollout. */
  function PhiSum(exp: real -> real, t: seq<Transition>, j: nat): (r: real)
    requires ExpPositive(exp)
    requires HasDim(t, j)
    ensures |t| > 0 ==> 0.0 < r
    ensures r <= PhiCeiling * (|t| as real)
  {
    if |t| == 0 then 0.0
    else PhiSum(exp, t[..|t| - 1], j) + Phi(exp, t[|t| - 1].constraint[j])
  }

  /** The accumulated return after `k + 1` steps, from the one after `k` steps. */
  lemma ReturnPrefixStep(cfg: Config, t: seq<Transition>, k: nat)
    requires k < |t|
    ensures Sum(ReturnTerms(cfg, t)[..k + 1]) == Sum(ReturnTerms(cfg, t)[..k]) + Discounted(cfg, k, t[k].reward)
  {
    var terms := ReturnTerms(cfg, t);
    assert terms[..k + 1][..k] == terms[..k];
  }

  /** The return accumulated over every step of a rollout is its whole return. */
  lemma ReturnComplete(cfg: Config, t: seq<Transition>, n: nat)
    requires n == |t|
    ensures Sum(ReturnTerms(cfg, t)[..n]) == RolloutReturn(cfg, t)
  {
    assert ReturnTerms(cfg, t)[..n] == ReturnTerms(cfg, t);
  }

  /** Every transition carries at least `m` constraint values. */
  predicate Dims(t: seq<Transition>, m: nat)
  {
    forall k :: 0 <= k < |t| ==> m <= |t[k].constraint|
  }

  /** `traj_issafe` as a whole: the safety flag of every dimension below `m`. */
  ghost function SafeFlags(t: seq<Transition>, m: nat): (r: seq<real>)
    requires Dims(t, m)
    ensures |r| == m
  {
    seq(m, j requires 0 <= j < m => SafeFlag(t, j))
  }

  /** `c_sum` as a whole. */
  ghost function PhiSums(exp: real -> real, t: seq<Transition>, m: nat): (r: seq<real>)
    requires ExpPositive(exp)
    requires Dims(t, m)
    ensures |r| == m
  {
    seq(m, j requires 0 <= j < m => PhiSum(exp, t, j))
  }

  /** `c_mul` as a whole. */
  ghost function PhiProducts(exp: real -> real, t: seq<Transition>, m: nat): (r: seq<real>)
    requires ExpPositive(exp)
    requires Dims(t, m)
    ensures |r| == m
  {
    seq(m, j requires 0 <= j < m => PhiProduct(exp, t, j))
  }

  /** `traj_issafe *= where(c > 0, 0, 1)`: one step of the AND-accumulation. */
  function AndIndicators(flags: seq<real>, c: seq<real>): (r: seq<real>)
    requires |flags| <= |c|
    ensures |r| == |flags|
  {
    seq(|flags|, j requires 0 <= j < |flags| => flags[j] * Indicator(c[j]))
  }

  /** `Phi` of every constraint value below `m` of one step. */
  function PhiAll(exp: real -> real, c: seq<real>, m: nat): (r: seq<real>)
    requires ExpPositive(exp)
    requires m <= |c|
    ensures |r| == m
  {
    seq(m, j requires 0 <= j < m => Phi(exp, c[j]))
  }

  /** Element-wise sum of two vectors of the same length. */
  function AddAll(a: seq<real>, b: seq<real>): (r: seq<real>)
    requires |a| == |b|
    ensures |r| == |a|
  {
    seq(|a|, j requires 0 <= j < |a| => a[j] + b[j])
  }

  /** Element-wise product of two vectors of the same length. */
  function MulAll(a: seq<real>, b: seq<real>): (r: seq<real>)
    requires |a| == |b|
    ensures |r| == |a|
  {
    seq(|a|, j requires 0 <= j < |a| => a[j] * b[j])
  }

  /** The bounds of `c_sum` and `c_mul` for every dimension of a non-empty rollout. */
  lemma PhiVectorBounds(exp: real -> real, t: seq<Transition>, m: nat)
    requires ExpPositive(exp)
    requires Dims(t, m)
    requires |t| > 0
    ensures forall j :: 0 <= j < m ==> 0.0 < PhiSums(exp, t, m)[j] <= PhiCeiling * (|t| as real)
    ensures forall j :: 0 <= j < m ==> 0.0 < PhiProducts(exp, t, m)[j] <= Pow(PhiCeiling, |t|)
    ensures forall j :: 0 <= j < m ==> HasDim(t, j) && PhiProducts(exp, t, m)[j] == PhiProduct(exp, t, j)
  {
    forall j | 0 <= j < m
      ensures 0.0 < PhiProducts(exp, t, m)[j] <= Pow(PhiCeiling, |t|)
    {
      PhiProductBound(exp, t, j);
    }
  }

  /** A prefix of a rollout keeps the constraint dimension. */
  lemma DimsPrefix(t: seq<Transition>, m: nat, k: nat)
    requires Dims(t, m)
    requires k <= |t|
    ensures Dims(t[..k], m)
  {
  }

  /** The flags after `k + 1` steps are those after `k` steps ANDed with step `k`. */
  lemma SafeFlagsStep(t: seq<Transition>, m: nat, k: nat)
    requires Dims(t, m)
    requires k < |t|
    ensures Dims(t[..k], m) && Dims(t[..k + 1], m)
    ensures SafeFlags(t[..k + 1], m) == AndIndicators(SafeFlags(t[..k], m), t[k].constraint)
  {
    DimsPrefix(t, m, k);
    DimsPrefix(t, m, k + 1);
    var next := SafeFlags(t[..k + 1], m);
    var acc := AndIndicators(SafeFlags(t[..k], m), t[k].constraint);
    forall j | 0 <= j < m
      ensures next[j] == acc[j]
    {
      SafeFlagPrefixStep(t, j, k);
    }
  }

  /** `c_sum` and `c_mul` after `k + 1` steps, from the ones after `k` steps. */
  lemma PhiAllStep(exp: real -> real, t: seq<Transition>, m: nat, k: nat)
    requires ExpPositive(exp)
    requires Dims(t, m)
    requires k < |t|
    ensures Dims(t[..k], m) && Dims(t[..k + 1], m)
    ensures PhiSums(exp, t[..k + 1], m) == AddAll(PhiSums(exp, t[..k], m), PhiAll(exp, t[k].constraint, m))
    ensures PhiProducts(exp, t[..k + 1], m) == MulAll(PhiProducts(exp, t[..k], m), PhiAll(exp, t[k].constraint, m))
  {
    DimsPrefix(t, m, k);
    DimsPrefix(t, m, k + 1);
    PhiSumsStep(exp, t, m, k);
    PhiProductsStep(exp, t, m, k);
  }

  lemma PhiSumsStep(exp: real -> real, t: seq<Transition>, m: nat, k: nat)
    requires ExpPositive(exp)
    requires Dims(t, m)
    requires k < |t|
    requires Dims(t[..k], m) && Dims(t[..k + 1], m)
    ensures PhiSums(exp, t[..k + 1], m) == AddAll(PhiSums(exp, t[..k], m), PhiAll(exp, t[k].constraint, m))
  {
    var c := PhiAll(exp, t[k].constraint, m);
    var sums := PhiSums(exp, t[..k + 1], m);
    var sumsAcc := AddAll(PhiSums(exp, t[..k], m), c);
    forall j | 0 <= j < m
      ensures sums[j] == sumsAcc[j]
    {
      PhiPrefixStep(exp, t, j, k);
    }
  }

  lemma PhiProductsStep(exp: real -> real, t: seq<Transition>, m: nat, k: nat)
    requires ExpPositive(exp)
    requires Dims(t, m)
    requires k < |t|
    requires Dims(t[..k], m) && Dims(t[..k + 1], m)
    ensures PhiProducts(exp, t[..k + 1], m) == MulAll(PhiProducts(exp, t[..k], m), PhiAll(exp, t[k].constraint, m))
  {
    var c := PhiAll(exp, t[k].constraint, m);
    var muls := PhiProducts(exp, t[..k + 1], m);
    var mulsAcc := MulAll(PhiProducts(exp, t[..k], m), c);
    forall j | 0 <= j < m
      ensures muls[j] == mulsAcc[j]
    {
      PhiPrefixStep(exp, t, j, k);
      ProductCongruence(PhiProducts(exp, t[..k], m)[j], c[j], PhiProduct(exp, t[..k], j), Phi(exp, t[k].constraint[j]));
    }
  }

  lemma ProductCongruence(x: real, y: real, x2: real, y2: real)
    requires x == x2 && y == y2
    ensures x * y == x2 * y2
  {
  }

  /** The safety flags after `k + 1` steps, from the ones after `k` steps. */
  lemma SafeFlagPrefixStep(t: seq<Transition>, j: nat, k: nat)
    requires HasDim(t, j)
    requires k < |t|
    ensures HasDim(t[..k], j) && HasDim(t[..k + 1], j)
    ensures SafeFlag(t[..k + 1], j) == SafeFlag(t[..k], j) * Indicator(t[k].constraint[j])
  {
    assert t[..k + 1][..k] == t[..k];
  }

  /** `c_sum` and `c_mul` of one dimension after `k + 1` steps. */
  lemma PhiPrefixStep(exp: real -> real, t: seq<Transition>, j: nat, k: nat)
    requires ExpPositive(exp)
    requires HasDim(t, j)
    requires k < |t|
    ensures HasDim(t[..k], j) && HasDim(t[..k + 1], j)
    ensures PhiSum(exp, t[..k + 1], j) == PhiSum(exp, t[..k], j) + Phi(exp, t[k].constraint[j])
    ensures PhiProduct(exp, t[..k + 1], j) == PhiProduct(exp, t[..k], j) * Phi(exp, t[k].constraint[j])
  {
    assert t[..k + 1][..k] == t[..k];
  }

  /** The rollout of a model with `m` constraint values has `m` per step. */
  lemma RolloutDims(dyn: Dynamics, o0: Obs, d0: bool, n: nat, m: nat)
    requires ConstraintDim(dyn, m)
    ensures Dims(Rollout(dyn, o0, d0, n), m)
  {
    RolloutDim(dyn, o0, d0, n, m);
  }

  /**
    The state of the value-target loop after `step >= 1` iterations: `o`
    is the observation fed to the last step, `o2` and `d` what the model
    returned, and the accumulators hold the return and the safety flags
    of the first `step` transitions.
  */
  ghost predicate ValueLoop(dyn: Dynamics, cfg: Config, o0: Obs, d0: bool, m: nat, step: nat,
                            o: Obs, o2: Obs, d: bool, rSum: real, issafe: seq<real>)
  {
    var t := Rollout(dyn, o0, d0, cfg.horizon);
    && 1 <= step <= cfg.horizon
    && o == ObsAt(o0, t, step - 1)
    && o2 == t[step - 1].next && d == t[step - 1].done
    && rSum == Sum(ReturnTerms(cfg, t)[..step])
    && Dims(t[..step], m) && issafe == SafeFlags(t[..step], m)
  }

  /** One iteration of the value-target loop, with its `step == 0` branch. */
  method ValueStep(dyn: Dynamics, cfg: Config, o0: Obs, d0: bool, m: nat, step: nat,
                   o: Obs, o2: Obs, d: bool, rSum: real, issafe: seq<real>)
    returns (o': Obs, o2': Obs, d': bool, rSum': real, issafe': seq<real>)
    requires ConstraintDim(dyn, m)
    requires step < cfg.horizon
    requires step == 0 ==> o == o0 && d == d0 && issafe == seq(m, j => 1.0)
    requires step > 0 ==> ValueLoop(dyn, cfg, o0, d0, m, step, o, o2, d, rSum, issafe)
    ensures ValueLoop(dyn, cfg, o0, d0, m, step + 1, o', o2', d', rSum', issafe')
  {
    ghost var t := Rollout(dyn, o0, d0, cfg.horizon);
    RolloutDims(dyn, o0, d0, cfg.horizon, m);
    RolloutStep(dyn, o0, d0, cfg.horizon, step);
    ReturnPrefixStep(cfg, t, step);
    SafeFlagsStep(t, m, step);
    var tr: Transition;
    if step == 0 {
      o' := o;
      tr := dyn.model(o', dyn.policy(o'), d);
      rSum' := cfg.rewardScale * tr.reward;
      assert t[..0] == [] && ReturnTerms(cfg, t)[..0] == [];
      assert issafe == SafeFlags(t[..0], m);
    } else {
      o' := o2;
      tr := dyn.model(o', dyn.policy(o'), d);
      rSum' := rSum + Discounted(cfg, step, tr.reward);
    }
    o2' := tr.next;
    d' := tr.done;
    issafe' := AndIndicators(issafe, tr.constraint);
  }

  /** What the value loop's variables mean once all `forward_step` steps ran. */
  lemma ValueLoopDone(dyn: Dynamics, cfg: Config, o0: Obs, d0: bool, m: nat,
                      o: Obs, o2: Obs, d: bool, rSum: real, issafe: seq<real>)
    requires ValueLoop(dyn, cfg, o0, d0, m, cfg.horizon, o, o2, d, rSum, issafe)
    ensures var t := Rollout(dyn, o0, d0, cfg.horizon);
      && rSum == RolloutReturn(cfg, t)
      && o2 == t[cfg.horizon - 1].next
      && o == ObsAt(o0, t, cfg.horizon - 1)
    ensures |issafe| == m
    ensures forall j :: 0 <= j < m ==>
      HasDim(Rollout(dyn, o0, d0, cfg.horizon), j) && issafe[j] == SafeFlag(Rollout(dyn, o0, d0, cfg.horizon), j)
  {
    var t := Rollout(dyn, o0, d0, cfg.horizon);
    assert rSum == Sum(ReturnTerms(cfg, t)[..cfg.horizon]);
    ReturnComplete(cfg, t, cfg.horizon);
    assert t[..cfg.horizon] == t;
  }

  /**
    The value-target loop of `compute_loss_v`: runs the model for exactly
    `forward_step` steps, accumulates the scaled discounted reward, adds
    the bootstrapped tail gamma^H * V_target(o2), and ANDs the per-step
    safety indicators. `lastObs` is the observation `o` holds after the
    loop (the one fed to the last step), which the multiplier target reads.
  */
  method ValueRollout(dyn: Dynamics, vTarget: Obs -> real, cfg: Config, o0: Obs, d0: bool, m: nat)
    returns (rSum: real, issafe: seq<real>, lastObs: Obs)
    requires cfg.horizon > 0
    requires ConstraintDim(dyn, m)
    ensures rSum == BootstrappedReturn(vTarget, cfg, Rollout(dyn, o0, d0, cfg.horizon))
    ensures lastObs == ObsAt(o0, Rollout(dyn, o0, d0, cfg.horizon), cfg.horizon - 1)
    ensures |issafe| == m
    ensures forall j :: 0 <= j < m ==>
      HasDim(Rollout(dyn, o0, d0, cfg.horizon), j) && issafe[j] == SafeFlag(Rollout(dyn, o0, d0, cfg.horizon), j)
  {
    var o := o0;
    var o2 := o0;  // the batch's `obs2`, overwritten by step 0
    var d := d0;
    rSum := 0.0;
    issafe := seq(m, j => 1.0);
    var step := 0;
    while step < cfg.horizon
      invariant 0 <= step <= cfg.horizon
      invariant step == 0 ==> o == o0 && d == d0 && issafe == seq(m, j => 1.0)
      invariant step > 0 ==> ValueLoop(dyn, cfg, o0, d0, m, step, o, o2, d, rSum, issafe)
    {
      o, o2, d, rSum, issafe := ValueStep(dyn, cfg, o0, d0, m, step, o, o2, d, rSum, issafe);
      step := step + 1;
    }
    ValueLoopDone(dyn, cfg, o0, d0, m, o, o2, d, rSum, issafe);
    rSum := rSum + Pow(cfg.gamma, cfg.horizon) * vTarget(o2);
    lastObs := o;
  }

  /**
    The state of the policy loop after `step >= 1` iterations: `o2` and
    `d` are what the model returned last, and the accumulators hold the
    return and the sums and products of `Phi` over the first `step`
    transitions.
  */
  ghost predicate PolicyLoop(dyn: Dynamics, exp: real -> real, cfg: Config, o0: Obs, d0: bool, m: nat, step: nat,
                             o2: Obs, d: bool, rSum: real, cSum: seq<real>, cMul: seq<real>)
    requires ExpPositive(exp)
  {
    var t := Rollout(dyn, o0, d0, cfg.horizon);
    && 1 <= step <= cfg.horizon
    && o2 == t[step - 1].next && d == t[step - 1].done
    && rSum == Sum(ReturnTerms(cfg, t)[..step])
    && Dims(t[..step], m)
    && cSum == PhiSums(exp, t[..step], m)
    && cMul == PhiProducts(exp, t[..step], m)
  }

  /** One iteration of the policy loop, with its `step == 0` branch. */
  method PolicyStep(dyn: Dynamics, exp: real -> real, cfg: Config, o0: Obs, d0: bool, m: nat, step: nat,
                    o2: Obs, d: bool, rSum: real, cSum: seq<real>, cMul: seq<real>)
    returns (o2': Obs, d': bool, rSum': real, cSum': seq<real>, cMul': seq<real>)
    requires ExpPositive(exp)
    requires ConstraintDim(dyn, m)
    requires step < cfg.horizon
    requires step == 0 ==> d == d0
    requires step > 0 ==> PolicyLoop(dyn, exp, cfg, o0, d0, m, step, o2, d, rSum, cSum, cMul)
    ensures PolicyLoop(dyn, exp, cfg, o0, d0, m, step + 1, o2', d', rSum', cSum', cMul')
  {
    ghost var t := Rollout(dyn, o0, d0, cfg.horizon);
    RolloutDims(dyn, o0, d0, cfg.horizon, m);
    RolloutStep(dyn, o0, d0, cfg.horizon, step);
    ReturnPrefixStep(cfg, t, step);
    PhiAllStep(exp, t, m, step);
    var tr: Transition;
    var c: seq<real>;
    if step == 0 {
      tr := dyn.model(o0, dyn.policy(o0), d);
      c := PhiAll(exp, tr.constraint, m);
      rSum' := cfg.rewardScale * tr.reward;
      cSum' := c;
      cMul' := c;
      assert t[..0] == [] && ReturnTerms(cfg, t)[..0] == [];
      assert cSum' == AddAll(PhiSums(exp, t[..0], m), c);
      assert cMul' == MulAll(PhiProducts(exp, t[..0], m), c);
    } else {
      var o := o2;
      tr := dyn.model(o, dyn.policy(o), d);
      c := PhiAll(exp, tr.constraint, m);
      rSum' := rSum + Discounted(cfg, step, tr.reward);
      cSum' := AddAll(cSum, c);
      cMul' := MulAll(cMul, c);
    }
    o2' := tr.next;
    d' := tr.done;
  }

  /**
    The rollout loop of `compute_loss_policy`: the same simulated steps,
    the scaled discounted reward with no tail, and per constraint the sum
    and the product of `Phi` over the steps.
  */
  method PolicyRollout(dyn: Dynamics, exp: real -> real, cfg: Config, o0: Obs, d0: bool, m: nat)
    returns (rSum: real, cSum: seq<real>, cMul: seq<real>)
    requires ExpPositive(exp)
    requires cfg.horizon > 0
    requires ConstraintDim(dyn, m)
    ensures rSum == RolloutReturn(cfg, Rollout(dyn, o0, d0, cfg.horizon))
    ensures |cSum| == m && |cMul| == m
    ensures forall j :: 0 <= j < m ==> 0.0 < cSum[j] <= PhiCeiling * (cfg.horizon as real)
    ensures forall j :: 0 <= j < m ==> 0.0 < cMul[j] <= Pow(PhiCeiling, cfg.horizon)
    ensures forall j :: 0 <= j < m ==>
      HasDim(Rollout(dyn, o0, d0, cfg.horizon), j) && cSum[j] == PhiSum(exp, Rollout(dyn, o0, d0, cfg.horizon), j)
    ensures forall j :: 0 <= j < m ==>
      HasDim(Rollout(dyn, o0, d0, cfg.horizon), j) && cMul[j] == PhiProduct(exp, Rollout(dyn, o0, d0, cfg.horizon), j)
  {
    var o2 := o0;  // the batch's `obs2`, overwritten by step 0
    var d := d0;
    rSum, cSum, cMul := 0.0, [], [];
    var step := 0;
    while step < cfg.horizon
      invariant 0 <= step <= cfg.horizon
      invariant step == 0 ==> d == d0
      invariant step > 0 ==> PolicyLoop(dyn, exp, cfg, o0, d0, m, step, o2, d, rSum, cSum, cMul)
    {
      o2, d, rSum, cSum, cMul := PolicyStep(dyn, exp, cfg, o0, d0, m, step, o2, d, rSum, cSum, cMul);
      step := step + 1;
    }
    PolicyLoopReturn(dyn, exp, cfg, o0, d0, m, o2, d, rSum, cSum, cMul);
    PolicyLoopSums(dyn, exp, cfg, o0, d0, m, o2, d, rSum, cSum, cMul);
    PolicyLoopProducts(dyn, exp, cfg, o0, d0, m, o2, d, rSum, cSum, cMul);
  }

  /** The policy loop's return once all `forward_step` steps ran. */
  lemma PolicyLoopReturn(dyn: Dynamics, exp: real -> real, cfg: Config, o0: Obs, d0: bool, m: nat,
                         o2: Obs, d: bool, rSum: real, cSum: seq<real>, cMul: seq<real>)
    requires ExpPositive(exp)
    requires PolicyLoop(dyn, exp, cfg, o0, d0, m, cfg.horizon, o2, d, rSum, cSum, cMul)
    ensures rSum == RolloutReturn(cfg, Rollout(dyn, o0, d0, cfg.horizon))
  {
    ReturnComplete(cfg, Rollout(dyn, o0, d0, cfg.horizon), cfg.horizon);
  }

  /** The policy loop's `c_sum` once all `forward_step` steps ran. */
  lemma PolicyLoopSums(dyn: Dynamics, exp: real -> real, cfg: Config, o0: Obs, d0: bool, m: nat,
                       o2: Obs, d: bool, rSum: real, cSum: seq<real>, cMul: seq<real>)
    requires ExpPositive(exp)
    requires PolicyLoop(dyn, exp, cfg, o0, d0, m, cfg.horizon, o2, d, rSum, cSum, cMul)
    ensures |cSum| == m
    ensures forall j :: 0 <= j < m ==> 0.0 < cSum[j] <= PhiCeiling * (cfg.horizon as real)
    ensures forall j :: 0 <= j < m ==>
      HasDim(Rollout(dyn, o0, d0, cfg.horizon), j) && cSum[j] == PhiSum(exp, Rollout(dyn, o0, d0, cfg.horizon), j)
  {
    var t := Rollout(dyn, o0, d0, cfg.horizon);
    assert t[..cfg.horizon] == t;
    assert cSum == PhiSums(exp, t, m);
    PhiVectorBounds(exp, t, m);
  }

  /** The policy loop's `c_mul` once all `forward_step` steps ran. */
  lemma PolicyLoopProducts(dyn: Dynamics, exp: real -> real, cfg: Config, o0: Obs, d0: bool, m: nat,
                           o2: Obs, d: bool, rSum: real, cSum: seq<real>, cMul: seq<real>)
    requires ExpPositive(exp)
    requires PolicyLoop(dyn, exp, cfg, o0, d0, m, cfg.horizon, o2, d, rSum, cSum, cMul)
    ensures |cMul| == m
    ensures forall j :: 0 <= j < m ==> 0.0 < cMul[j] <= Pow(PhiCeiling, cfg.horizon)
    ensures forall j :: 0 <= j < m ==>
      HasDim(Rollout(dyn, o0, d0, cfg.horizon), j) && cMul[j] == PhiProduct(exp, Rollout(dyn, o0, d0, cfg.horizon), j)
  {
    var t := Rollout(dyn, o0, d0, cfg.horizon);
    assert t[..cfg.horizon] == t;
    assert cMul == PhiProducts(exp, t, m);
    PhiVectorBounds(exp, t, m);
  }
}

=== FILE: spil_target.dfy ===
/**
  The network container (`ApproxContainer`) and its `update`: every
  network that received gradients takes one optimizer step, then its
  target copy is Polyak-averaged towards it,
  target := (1 - tau) * target + tau * online.

  A network's parameters are flattened into one sequence of reals in
  `parameters()` order; pairing the online and target parameters with
  `zip` stops at the shorter sequence. The optimizer (Adam) is a
  function parameter.
*/
module SpilTarget {
  import opened RealMath

  /** The keys of `net_dict`, `target_net_dict` and `optimizer_dict`. */
  datatype NetName = V | Policy | Prob | Lamnet

  /** A network's parameters and those of its target copy. */
  datatype Net = Net(online: seq<real>, target: seq<real>)

  datatype Container = Container(v: Net, policy: Net, prob: Net, lamnet: Net)
  {
    function Get(n: NetName): (net: Net)
    {
      match n
      case V => v
      case Policy => policy
      case Prob => prob
      case Lamnet => lamnet
    }
  }

  /** Optimizer step: (network, parameters, gradients) to new parameters. */
  type Optimizer = (NetName, seq<real>, seq<real>) -> seq<real>

  /** The in-place optimizer step never changes the number of parameters. */
  ghost predicate KeepsShape(opt: Optimizer)
  {
    forall n, p, g :: |opt(n, p, g)| == |p|
  }

  /**
    The soft update of one target parameter sequence, with `zip` pairing:
    each paired entry's gap to its online entry shrinks by the factor
    1 - tau, and target entries without an online partner are left as
    they were.
  */
  function Blend(tau: real, target: seq<real>, online: seq<real>): (r: seq<real>)
    ensures |r| == |target|
    ensures forall i {:trigger r[i]} :: 0 <= i < |target| && i < |online| ==> r[i] - online[i] == (1.0 - tau) * (target[i] - online[i])
    ensures forall i {:trigger r[i]} :: |online| <= i < |target| ==> r[i] == target[i]
  {
    seq(|target|, i requires 0 <= i < |target| =>
      if i < |online| then (1.0 - tau) * target[i] + tau * online[i] else target[i])
  }

  /**
    With 0 <= tau <= 1 each paired entry lies between the old target
    and the online value.
  */
  lemma BlendBetween(tau: real, target: seq<real>, online: seq<real>, i: nat)
    requires 0.0 <= tau <= 1.0
    requires i < |target| && i < |online|
    ensures target[i] <= online[i] ==> target[i] <= Blend(tau, target, online)[i] <= online[i]
    ensures online[i] <= target[i] ==> online[i] <= Blend(tau, target, online)[i] <= target[i]
  {
    var b := Blend(tau, target, online)[i];
    var f, g := 1.0 - tau, target[i] - online[i];
    ScaleByFraction(f, g);
    assert b == online[i] + f * g;
  }

  /** tau = 0 keeps the target; tau = 1 copies the online parameters (hard update). */
  lemma BlendExtremes(target: seq<real>, online: seq<real>)
    ensures Blend(0.0, target, online) == target
    ensures |online| == |target| ==> Blend(1.0, target, online) == online
  {
  }

  /** A target that already equals the online network stays equal, whatever tau is. */
  lemma BlendFixedPoint(tau: real, p: seq<real>)
    ensures Blend(tau, p, p) == p
  {
    var r := Blend(tau, p, p);
    forall i | 0 <= i < |p|
      ensures r[i] == p[i]
    {
      assert r[i] - p[i] == (1.0 - tau) * (p[i] - p[i]);
    }
  }

  /**
    `k` soft updates towards fixed online parameters. The gap of every
    paired entry is then (1 - tau)^k times the initial gap: the target
    converges geometrically for 0 < tau <= 1.
  */
  function BlendRepeated(k: nat, tau: real, target: seq<real>, online: seq<real>): (r: seq<real>)
    ensures |r| == |target|
    ensures forall i :: 0 <= i < |target| && i < |online| ==>
      r[i] - online[i] == Pow(1.0 - tau, k) * (target[i] - online[i])
  {
    if k == 0 then
      assert Pow(1.0 - tau, k) == 1.0;
      target
    else
      var prev := BlendRepeated(k - 1, tau, target, online);
      BlendOnceMore(k, tau, target, online, prev);
      Blend(tau, prev, online)
  }

  /** One more soft update multiplies every paired gap by 1 - tau. */
  lemma BlendOnceMore(k: nat, tau: real, target: seq<real>, online: seq<real>, prev: seq<real>)
    requires 0 < k
    requires |prev| == |target|
    requires forall i :: 0 <= i < |target| && i < |online| ==>
      prev[i] - online[i] == Pow(1.0 - tau, k - 1) * (target[i] - online[i])
    ensures forall i :: 0 <= i < |target| && i < |online| ==>
      Blend(tau, prev, online)[i] - online[i] == Pow(1.0 - tau, k) * (target[i] - online[i])
  {
    forall i | 0 <= i < |target| && i < |online|
      ensures Blend(tau, prev, online)[i] - online[i] == Pow(1.0 - tau, k) * (target[i] - online[i])
    {
      var p, g := Pow(1.0 - tau, k - 1), target[i] - online[i];
      assert Pow(1.0 - tau, k) == (1.0 - tau) * p;
      assert Blend(tau, prev, online)[i] - online[i] == (1.0 - tau) * (prev[i] - online[i]);
      MulAssociative(1.0 - tau, p, g);
    }
  }

  /** One network's optimizer step followed by its target's soft update. */
  function StepNet(n: NetName, net: Net, tau: real, grads: seq<real>, opt: Optimizer): (r: Net)
    ensures r.online == opt(n, net.online, grads)
    ensures r.target == Blend(tau, net.target, r.online)
  {
    var online := opt(n, net.online, grads);
    Net(online, Blend(tau, net.target, online))
  }

  /**
    `ApproxContainer.update`: the networks named in `grads` are stepped
    and their targets blended; the other networks and their targets are
    untouched.
  */
  function Update(c: Container, tau: real, grads: map<NetName, seq<real>>, opt: Optimizer): (r: Container)
    ensures forall n :: n !in grads ==> r.Get(n) == c.Get(n)
    ensures forall n :: n in grads ==> r.Get(n).online == opt(n, c.Get(n).online, grads[n])
    ensures forall n :: n in grads ==> |r.Get(n).target| == |c.Get(n).target|
  {
    Container(
      UpdateOne(c, V, tau, grads, opt),
      UpdateOne(c, Policy, tau, grads, opt),
      UpdateOne(c, Prob, tau, grads, opt),
      UpdateOne(c, Lamnet, tau, grads, opt))
  }

  function UpdateOne(c: Container, n: NetName, tau: real, grads: map<NetName, seq<real>>, opt: Optimizer): (net: Net)
  {
    if n in grads then StepNet(n, c.Get(n), tau, grads[n], opt) else c.Get(n)
  }

  /**
    For a stepped network every paired target entry moves from its old
    value towards the new online value by the fraction tau.
  */
  lemma UpdateTracksOnline(c: Container, tau: real, grads: map<NetName, seq<real>>, opt: Optimizer, n: NetName, i: nat)
    requires n in grads
    requires i < |c.Get(n).target| && i < |Update(c, tau, grads, opt).Get(n).online|
    ensures var r := Update(c, tau, grads, opt).Get(n);
      r.target[i] - r.online[i] == (1.0 - tau) * (c.Get(n).target[i] - r.online[i])
  {
    var r := Update(c, tau, grads, opt).Get(n);
    assert r.target == Blend(tau, c.Get(n).target, r.online);
  }

  /**
    With tau = 1 and a shape-keeping optimizer, every stepped network's
    target becomes an exact copy of the network.
  */
  lemma HardUpdateSynchronizes(c: Container, grads: map<NetName, seq<real>>, opt: Optimizer, n: NetName)
    requires KeepsShape(opt)
    requires n in grads
    requires |c.Get(n).online| == |c.Get(n).target|
    ensures Update(c, 1.0, grads, opt).Get(n).target == Update(c, 1.0, grads, opt).Get(n).online
  {
    var r := Update(c, 1.0, grads, opt).Get(n);
    assert |r.online| == |c.Get(n).online|;
    BlendExtremes(c.Get(n).target, r.online);
  }
}

=== FILE: wrappers.dfy ===
/** Failure-carrying results: a Python exception becomes `Failure`. */
module Wrappers {

  datatype Result<+T, +E> = Success(value: T) | Failure(error: E)

  datatype Option<+T> = None | Some(value: T)
}
